=== FILE: README.md ===
# Device-adaptive quality controller of the 3D material lab

The material lab renders a cube with physically based materials under
switchable HDRI environments. Its only real logic is a small controller that
adapts rendering quality to the device:

- a **device profiler** scores the host's core count, memory, mobile flag and
  pixel ratio, picks a tier (low, medium, high) and derives capability flags;
- **settings optimizers** turn an environment name, a material type or a
  lighting preset plus that profile into shadow sizes, blur samples and light
  intensities, and estimate the memory a setting costs;
- a **frame-rate monitor** keeps a sliding window of at most 60 FPS samples
  and, once it holds 30, tells its observers when the average drops below 45
  or the minimum of the last 30 samples drops below 30;
- **lighting presets** are a keyed table with per-material and per-device
  adjustments;
- **environment transitions** crossfade between two environments with
  eased progress, and a controller chooses between direct rendering and a
  crossfade.

The Dafny project models all of this as immutable records and pure
functions. The monitor is an explicit state record. Its step function
`RecordFrame` takes the frame's FPS sample and returns the new state together
with the list of observer deliveries. Intensities, FPS values and times are
`real`. Host signals, clock readings and FPS samples are parameters. A field
that the JavaScript object lacks, or that holds `NaN` because arithmetic ran
on a missing field, is modelled as `None`.

Files, one module each:

| file | module | models |
|---|---|---|
| common.dfy | Common | `Option`, `Math.min`/`max`/`round`, `x || d` on numbers |
| device_profile.dfy | DeviceProfile | `detectDevicePerformance` |
| optimizer.dfy | Optimizer | `getOptimizedEnvironmentSettings`, `getOptimizedShadowSettings`, `getOptimizedIntensity`, `estimateMemoryUsage` |
| frame_monitor.dfy | FrameMonitor | class `PerformanceMonitor` |
| lighting_presets.dfy | LightingPresets | the preset table and its four functions |
| easing.dfy | Easing | `easeInOutCubic`, `easeOutQuart`, smoothstep, clamped progress |
| crossfade.dfy | Crossfade | `EnvironmentCrossfade` and `SmartEnvironmentController` |
| environment_manager.dfy | EnvironmentManager | `ENVIRONMENT_CONFIGS`, `EnvironmentTransition`, `EnvironmentManager`, `MobileEnvironmentManager`, `SmartEnvironmentManager` |

`getOptimizedEnvironmentSettings` ends its lookup with `|| baseSettings.studio`,
so a studio fallback for unknown environment names is evidently intended.
That fallback can never take effect, and the model follows the code as
written. See "Findings" below.

## Model

| member | source | states |
|---|---|---|
| DeviceProfile.DetectDevicePerformance | src/utils/performanceUtils.js:7-52 | The score lies in [0,100] and is the clamped raw score. The tier is high iff the score is at least 70 and low iff it is at most 40, so the tier (read from the raw score) agrees with the clamped score. Shadows are supported iff the raw score is at least 50, HDRI iff it is at least 40 and transitions iff it is at least 60, so transitions imply shadows and shadows imply HDRI. The shadow-map size is 1024, 1512 or 2048: mobile gives 1024 and 2 lights, non-mobile with raw at least 70 gives 2048 and 4, otherwise 1512 and 3. Missing or zero signals read as 4 cores, 4 GB and ratio 1. |
| DeviceProfile.RawScore | src/utils/performanceUtils.js:14-30 | The raw score always lies in [-20, 85]. |
| DeviceProfile.TierOf | src/utils/performanceUtils.js:32-35 | High iff raw is at least 70; low iff raw is at most 40. |
| DeviceProfile.MissingSignalsUseDefaults | src/utils/performanceUtils.js:9-11 | Absent and zero signals give the same profile, with 4 cores, 4 GB and pixel ratio 1. |
| DeviceProfile.RawScoreMonotoneInCores | src/utils/performanceUtils.js:16-19 | More effective cores never lower the raw score. |
| DeviceProfile.RawScoreMonotoneInMemory | src/utils/performanceUtils.js:21-24 | More effective memory never lowers the raw score. |
| DeviceProfile.PenaltiesOnlyLower | src/utils/performanceUtils.js:26-30 | Being mobile lowers the raw score by exactly 25. A pixel ratio above 2 lowers it by 10; a lower ratio changes nothing. |
| DeviceProfile.ScoreMonotoneInHost | src/utils/performanceUtils.js:9-39 | With the other signals held fixed, the reported score is non-decreasing in effective cores and memory. |
| DeviceProfile.TierBoundaries | src/utils/performanceUtils.js:33-35 | 70 is high and 69 is not; 40 is low and 41 is not. |
| DeviceProfile.LowEndPhoneScenario | src/utils/performanceUtils.js:14-49 | 2 cores, 2 GB, mobile, ratio 3 gives raw -20, score 0, low tier, 1024 map size and 2 lights. |
| DeviceProfile.HighEndDesktopScenario | src/utils/performanceUtils.js:14-49 | 8 cores, 8 GB, desktop, ratio 1 gives score 85, high tier, 2048 map size and 4 lights. |
| Optimizer.BaseSettings | src/utils/performanceUtils.js:56-81 | The table has an entry exactly for studio, city, sunset and apartment. |
| Optimizer.OptimizedEnvironmentSettings | src/utils/performanceUtils.js:55-103 | For a known environment the result starts from the base entry. Low tier sets the map size to the smaller of the base and 1024, turns transitions off and scales intensity by 0.8. Medium tier only sets the map size to the smaller of the base and 1512. High tier returns the base. The priority is always kept. For an unknown name there are no intensity, map size or priority values, and transitions are false on the low tier and absent otherwise. |
| Optimizer.UnknownEnvironmentIsNotStudio | src/utils/performanceUtils.js:83 | For every name outside the table, the result differs from the studio result on the same device. The fallback is dead. |
| Optimizer.NightAndParkGetNoBase | src/utils/performanceUtils.js:83-100 | `night` and `park` each get neither an intensity nor a map size. |
| Optimizer.OptimizedEnvironmentSettingsWithFallback | src/utils/performanceUtils.js:83 | The corrected optimizer: every field is present. A known name gives the as-written result, and any other name gives the studio result. |
| Optimizer.MaterialMultipliers | src/utils/performanceUtils.js:116-144 | Any type other than physical, metallic or glass uses the standard multipliers (1.0, 1.0, 1.0). |
| Optimizer.MaterialScaled | src/utils/performanceUtils.js:106-153 | Before any device limit, the map size and blur samples are the lighting's values (2048 and 25 when missing or zero) times the material's multipliers, rounded to the nearest integer. The radius is the lighting's radius (10 by default) times the radius multiplier. Bias and normal bias are the lighting's values, with -0.0005 and 0.02 as defaults. |
| Optimizer.OptimizedShadowSettings | src/utils/performanceUtils.js:106-167 | The map size is the smaller of the material-scaled size and the profile's maximum. Low tier takes the smaller of the scaled blur samples and 15 and of the scaled radius and 8; medium does the same with 20 and 12; high keeps the scaled values. Bias and normal bias pass through, with only a zero value replaced by the default. |
| Optimizer.UnknownMaterialIsStandard | src/utils/performanceUtils.js:143-144 | An unlisted material type gives the same shadows as no material at all. |
| Optimizer.StandardHighTierKeepsLighting | src/utils/performanceUtils.js:107-156 | With standard multipliers on a high tier, radius and blur samples are the lighting's own values, and the map size is the lighting's size capped by the device. |
| Optimizer.EnvironmentAdjustment | src/utils/performanceUtils.js:175-182 | Unlisted environments use the studio pair (1.0, 1.0). All multipliers are positive and at most 1.1 and 1.2. |
| Optimizer.OptimizedIntensity | src/utils/performanceUtils.js:170-200 | Non-negative preset values give non-negative intensities. Studio on a medium device returns the preset's own non-zero values. |
| Optimizer.IntensityTierFactors | src/utils/performanceUtils.js:170-200 | A medium device gets the preset values (zero read as 1.0 and 0.6) times the environment's multipliers. Relative to that, a low device gets 0.8 times the light and 0.7 times the environment intensity, and a high device 1.1 and 1.2 times. |
| Optimizer.IntensityOrderedByTier | src/utils/performanceUtils.js:187-194 | For non-negative presets, low is at most medium, which is at most high, for both the light and the environment intensity. |
| Optimizer.UnknownEnvironmentIntensityIsStudio | src/utils/performanceUtils.js:182 | Here the studio fallback does take effect: an unknown name gives the studio intensities. |
| Optimizer.EnvironmentMemory | src/utils/performanceUtils.js:205-216 | An environment map costs between 3 and 6 MB; unlisted names cost 4. |
| Optimizer.EstimateMemoryUsage | src/utils/performanceUtils.js:203-220 | The shadow part is the cube-map memory of the given size and the environment part is the map's cost for the given name (4 MB when unlisted). The total is their sum, and the warning is raised iff the total exceeds 50 MB. |
| Optimizer.MemoryExamples | src/utils/performanceUtils.js:203-220 | A 1024 map in studio costs 24 + 4 = 28 MB with no warning. A 2048 map in city costs 96 + 6 = 102 MB and warns. |
| Optimizer.ShadowMemoryMonotone | src/utils/performanceUtils.js:204 | Shadow-map memory grows with the map size. |
| Optimizer.MemoryWarningThresholds | src/utils/performanceUtils.js:204-218 | A map of 1512 or more always warns, and a map of 0 to 1024 never does, whatever the environment. |
| FrameMonitor.NewMonitor | src/utils/performanceUtils.js:224-229 | A new monitor is idle, has no observers and has an empty window. |
| FrameMonitor.StartMonitoring | src/utils/performanceUtils.js:231-235 | Starting switches monitoring on, empties the window and keeps the observers. |
| FrameMonitor.StopMonitoring | src/utils/performanceUtils.js:237-239 | Stopping switches monitoring off and leaves the window and the observers intact. |
| FrameMonitor.OnPerformanceIssue | src/utils/performanceUtils.js:281-283 | Registering appends the observer after all earlier ones and changes nothing else. |
| FrameMonitor.Average | src/utils/performanceUtils.js:257 | The mean of a non-empty window is never below its smallest sample. |
| FrameMonitor.Minimum | src/utils/performanceUtils.js:258 | The minimum is one of the samples and no sample is smaller. |
| FrameMonitor.Recent | src/utils/performanceUtils.js:258 | The result is the last 30 samples of the window, in order. |
| FrameMonitor.GetPerformanceSuggestion | src/utils/performanceUtils.js:270-279 | The result is good exactly when the average is at least 45 and the minimum at least 30, which is when no event is dispatched. It is severe iff the average is below 30, moderate iff the average is in [30,45), and minor iff the average is at least 45 with the minimum below 30. |
| FrameMonitor.Slide | src/utils/performanceUtils.js:248-251 | The new sample ends the window. The window grows by one until it holds 60 samples and then keeps its length. It never exceeds 60, and the result is the old window plus the sample with the oldest entries dropped. |
| FrameMonitor.Judge | src/utils/performanceUtils.js:256-267 | There is no event below 30 samples. From 30 samples on, an event is raised iff the average is below 45 or the minimum of the last 30 is below 30. The event carries that average and minimum, its suggestion is what `getPerformanceSuggestion` gives for them (severe, moderate or minor, never good). |
| FrameMonitor.Broadcast | src/utils/performanceUtils.js:261-265 | Each observer gets the event exactly once, in registration order. |
| FrameMonitor.RecordFrame | src/utils/performanceUtils.js:241-268 | While idle nothing changes and nothing is emitted. While monitoring the window slides. Nothing is emitted below 30 samples. From 30 samples on, deliveries happen iff there are observers and the average is below 45 or the recent minimum below 30. The deliveries go to the observers in registration order and all carry the same event: the one the new window calls for, with its average, recent minimum and classified suggestion. |
| FrameMonitor.RecordFrameKeepsValid | src/utils/performanceUtils.js:248-251 | Recording a frame keeps the window at 60 samples or fewer, all positive. |
| FrameMonitor.RunFramesKeepsValid | src/utils/performanceUtils.js:241-253 | Any run of frames keeps the window within capacity and leaves the observers and the flag unchanged. |
| FrameMonitor.StoppedMonitorIgnoresFrames | src/utils/performanceUtils.js:237-242 | After stopping, any run of frames changes nothing and emits nothing. |
| FrameMonitor.HealthyWindowNeedsNoEvent | src/utils/performanceUtils.js:256-260 | A window whose every sample is at least 45 FPS calls for no event, whatever its length. |
| FrameMonitor.HealthyWindowIsQuiet | src/utils/performanceUtils.js:256-260 | A window whose every sample is at least 45 FPS emits nothing. |
| FrameMonitor.SteadyRun | src/utils/performanceUtils.js:248-256 | From a fresh start, up to 60 equal samples fill the window with that rate, and fewer than 30 of them emit nothing. |
| FrameMonitor.SteadyRunGrows | src/utils/performanceUtils.js:241-256 | If a run of k < 60 equal frames left the window at those k samples, one more equal frame leaves it at k + 1 of them, and below 30 samples the longer run still emits nothing. |
| FrameMonitor.SteadySlowWindowIsSevere | src/utils/performanceUtils.js:256-272 | 30 equal samples below 30 FPS produce a severe event whose average and minimum are that rate. |
| FrameMonitor.TwentyNineFramesAreQuiet | src/utils/performanceUtils.js:256 | With one observer, 29 frames at any rate emit nothing. |
| FrameMonitor.ThirtiethSlowFrameIsSevere | src/utils/performanceUtils.js:256-272 | With one observer and a steady rate below 30 (for example 10 FPS), the 30th frame emits exactly one severe event. |
| LightingPresets.GetLightingPresets | src/config/lightingPresets.js:143-145 | Exactly the four presets studio, outdoor, sunset and night, in declaration order, each stored under its own key. |
| LightingPresets.GetLightingPreset | src/config/lightingPresets.js:148-150 | For the four keys, the result is the preset with that key; for any other key it is the studio preset. The result is always one of the listed presets. |
| LightingPresets.LookupByOwnKey | src/config/lightingPresets.js:148-150 | Looking up a listed preset by its key gives back that preset. |
| LightingPresets.GetOptimizedLighting | src/config/lightingPresets.js:153-162 | Only the environment intensity can change. It is multiplied by the material's factor when the preset lists the material with a non-zero factor. A listed factor of zero, or an unlisted material, leaves the preset unchanged. |
| LightingPresets.OptimizedLightingExamples | src/config/lightingPresets.js:153-162 | Glass leaves every stock preset unchanged, and metallic on studio gives 1.5. |
| LightingPresets.GetPerformanceOptimizedLighting | src/config/lightingPresets.js:165-185 | Mobile sets the map size to the smaller of the input and 1024 and the blur samples to the smaller of the input and 15, and scales environment intensity by 0.7. Tablet does the same with 1512 and 20 and keeps the intensity. Any other class returns the input. No other field changes, and neither cap ever raises a value. |
| LightingPresets.TabletAdjustmentIdempotent | src/config/lightingPresets.js:174-177 | Applying the tablet adjustment twice equals applying it once. |
| LightingPresets.MobileAdjustmentCompounds | src/config/lightingPresets.js:169-173 | Applying the mobile adjustment twice keeps the caps but scales the environment intensity by 0.49. |
| Easing.EaseInOutCubic | src/components/EnvironmentTransition.jsx:27-29 | Maps [0,1] into [0,1]. It stays below the diagonal before 0.5 and above it from 0.5 on. |
| Easing.EaseInOutCubicSymmetric | src/components/EnvironmentTransition.jsx:27-29 | The curve is point-symmetric about (0.5, 0.5). |
| Easing.EaseInOutCubicEndpoints | src/components/EnvironmentTransition.jsx:27-29 | 0 maps to 0, 0.5 to 0.5 and 1 to 1. |
| Easing.EaseOutQuart | src/components/EnvironmentTransition.jsx:31-33 | Maps [0,1] into [0,1] and runs ahead of linear progress. |
| Easing.EaseOutQuartEndpoints | src/components/EnvironmentTransition.jsx:31-33 | 0 maps to 0 and 1 maps to 1. |
| Easing.Smoothstep | src/components/EnvironmentManager.jsx:143 | Maps [0,1] into [0,1]. |
| Easing.SmoothstepSymmetric | src/components/EnvironmentManager.jsx:143 | The curve is point-symmetric about (0.5, 0.5). |
| Easing.SmoothstepEndpoints | src/components/EnvironmentManager.jsx:143 | 0 maps to 0 and 1 maps to 1. |
| Easing.Progress | src/components/EnvironmentTransition.jsx:48 | Progress is at most 1 and is non-negative for non-negative elapsed time. It equals 1 iff the duration has elapsed; before that it is elapsed divided by duration. |
| Crossfade.OnEnvironmentsChanged | src/components/EnvironmentTransition.jsx:36-42 | A transition restarts from progress 0 at the current time iff current and target differ; otherwise the state is untouched. |
| Crossfade.CrossfadeFrame | src/components/EnvironmentTransition.jsx:45-58 | An idle state stays idle and does not complete. While transitioning, the stored progress is the eased clamped progress. The frame completes iff the duration has elapsed, and it is then no longer transitioning with progress 1. On a forward clock the progress stays in [0,1]. |
| Crossfade.CompletionIsOneShot | src/components/EnvironmentTransition.jsx:45-57 | After the completing frame, every later frame changes nothing and does not complete again. |
| Crossfade.CompletedTransitionStaysSettled | src/components/EnvironmentTransition.jsx:36-57 | Once current is set to the target after completion, the change effect does not restart a transition. |
| Crossfade.TransitionCompletesAfterDuration | src/components/EnvironmentTransition.jsx:36-57 | A started transition completes on a frame iff at least the duration (in ms) has passed since the start. |
| Crossfade.CrossfadeIntensities | src/components/EnvironmentTransition.jsx:61-67 | While transitioning, the incoming intensity is the intensity times `easeOutQuart` of the stored progress, which is itself already cubic-eased, and the outgoing intensity is the rest. So the two sum to the intensity, and both lie in [0, intensity] for progress in [0,1]; progress 0 gives (intensity, 0) and progress 1 gives (0, intensity). At rest, equal environments give (intensity, 0) and different ones give (0, intensity). |
| Crossfade.DefaultDurationCompletesAt1200 | src/components/EnvironmentTransition.jsx:16-57 | With the component's default duration of 1.2 s, a started transition completes on a frame iff at least 1200 ms have passed. |
| Crossfade.SplitBoundedDuringTransition | src/components/EnvironmentTransition.jsx:45-67 | After any frame on a forward clock, both intensities lie in [0, intensity]. |
| Crossfade.ControllerRender | src/components/EnvironmentTransition.jsx:184-227 | It renders the studio placeholder at 0.6 exactly when the profile or the settings are still missing. Once both are there, it renders directly at intensity times the optimized intensity iff the tier is low or either transitions flag is off. Otherwise it crossfades from the controller's current environment to the requested one, preloading the first 4 (high) or 2 environments of the list, over 1.0 s (high) or 1.5 s. |
| Crossfade.UnknownEnvironmentRendersWithoutIntensity | src/components/EnvironmentTransition.jsx:196-205 | With the as-written optimizer, an unknown environment is always rendered directly with no usable intensity. |
| Crossfade.CrossfadeOnlyForKnownEnvironments | src/components/EnvironmentTransition.jsx:196-227 | With the as-written optimizer, a crossfade only happens for a known environment and carries a real intensity. |
| Crossfade.FallbackCrossfadesUnknownEnvironment | src/components/EnvironmentTransition.jsx:209-227 | With the corrected optimizer, a high-tier device crossfades an unknown environment like studio: all four defaults are preloaded, over 1.0 s. |
| Crossfade.MediumTierPreloadsTwo | src/components/EnvironmentTransition.jsx:212-223 | A medium-tier device with the default list preloads studio and city and crossfades over 1.5 s. |
| EnvironmentManager.EnvironmentConfigFor | src/components/EnvironmentManager.jsx:192 | Each of the six configured names gives the table entry whose preset is that name, and any other name gives the studio entry. Intensities lie in (0, 1.2] and fallback colours in [0,1]. |
| EnvironmentManager.AnimateStep | src/components/EnvironmentManager.jsx:138-152 | The stored progress is smoothstep of the clamped progress. The step completes iff raw progress reaches 1, and it then stops transitioning with progress 1. On a forward clock the progress stays in [0,1]. |
| EnvironmentManager.EffectiveIntensity | src/components/EnvironmentManager.jsx:160-162 | At rest the effective intensity equals the intensity. During a transition it is the linear ramp intensity × (0.5 + 0.5 × progress): between half and all of it, half at progress 0 and all at progress 1. |
| EnvironmentManager.EffectiveIntensityMonotone | src/components/EnvironmentManager.jsx:160-162 | For a non-negative intensity during a transition, more progress never gives a lower intensity. |
| EnvironmentManager.MountManager | src/components/EnvironmentManager.jsx:174-176 | A mounted manager is loading, with current and target equal to the requested environment. |
| EnvironmentManager.FinishLoading | src/components/EnvironmentManager.jsx:108-110 | When preloading settles, the loading flag is cleared and nothing else changes. |
| EnvironmentManager.SyncTarget | src/components/EnvironmentManager.jsx:185-189 | The target changes only after loading has finished and when the request differs from current; in that case it becomes the request. |
| EnvironmentManager.StartTransition | src/components/EnvironmentManager.jsx:131-135 | A transition starts iff current and target differ. |
| EnvironmentManager.ManagerFrame | src/components/EnvironmentManager.jsx:138-203 | Target and loading are unchanged. During a transition the tick keeps the start time and stores the smoothstep progress of the animation step. Once 0.8 s have passed, current becomes the target and the transition ends; before that, current stays and the transition goes on. |
| EnvironmentManager.EarlyFramesKeepTransition | src/components/EnvironmentManager.jsx:138-203 | Any number of ticks within 800 ms of the start keep the transition running from the same start time, with current, target and loading unchanged. |
| EnvironmentManager.TransitionCompletesOnFirstLateFrame | src/components/EnvironmentManager.jsx:138-203 | However many ticks come first, a transition completes on the first tick at least 800 ms after its start: current becomes the target, and the progress is 1. |
| EnvironmentManager.TransitionIntensity | src/components/EnvironmentManager.jsx:192-199 | The intensity passed on is the request times the configured intensity of the target, for every target. Unknown targets use studio's 1.0, and the result is never more than 1.2 times the request. |
| EnvironmentManager.ManagerRender | src/components/EnvironmentManager.jsx:211-245 | While loading it shows an ambient light at 0.6 in the target's fallback colour. Afterwards it shows the target's preset at the effective intensity of the transition intensity. That is the full transition intensity when no transition runs, and between half and all of it during a transition. An extra ambient light appears exactly for night (0.1, #4A6FA5) and sunset (0.05, #FF8C42). |
| EnvironmentManager.NoRetargetWhileLoading | src/components/EnvironmentManager.jsx:185-189 | Requests made while loading leave the manager unchanged. |
| EnvironmentManager.ManagerIntensityBounded | src/components/EnvironmentManager.jsx:160-162 | During a transition the rendered intensity lies between half and all of the transition intensity. |
| EnvironmentManager.CompletedManagerIsSettled | src/components/EnvironmentManager.jsx:131-152 | After completion, current equals target, and neither the effect nor another tick changes anything. |
| EnvironmentManager.StudioToCityScenario | src/components/EnvironmentManager.jsx:185-203 | A loaded studio manager asked for city retargets and starts a transition. After 800 ms, city is current and is rendered at 1.2 times the request. |
| EnvironmentManager.MobileEnvironmentLights | src/components/EnvironmentManager.jsx:249-269 | The ambient light is twice the directional one and 0.8 times the intensity. For non-negative intensity, 0 ≤ directional ≤ ambient ≤ intensity. The colour is the environment's fallback scaled to 255. |
| EnvironmentManager.UseMobileManager | src/components/EnvironmentManager.jsx:277-280 | The mobile manager is selected iff the user agent is mobile, or the host reports at most 4 cores, or it reports at most 4 GB of memory. With no reported cores or memory and a desktop agent, it is never selected. |
| EnvironmentManager.LowTierHostsGetMobileManager | src/components/EnvironmentManager.jsx:277-280 | Every host that the profiler puts in the low tier gets the mobile manager. |

## Findings

| source | as written | input that shows it | evidently intended | confidence | as-written member | corrected member |
|---|---|---|---|---|---|---|
| src/utils/performanceUtils.js:83 | The looked-up entry is spread into a new object before the `||` studio fallback. A spread of a missing entry is an empty object, which is truthy, so the fallback never applies. | environment `night` (or `park`), any tier | unknown names use the studio entry, which is what the `|| baseSettings.studio` on the same line is there for | not executed; high | Optimizer.UnknownEnvironmentIsNotStudio | Optimizer.OptimizedEnvironmentSettingsWithFallback |

The rest of the model keeps the as-written optimizer, because the controller's
behaviour on unknown names follows from it. `Crossfade.UnknownEnvironmentRendersWithoutIntensity`
shows what the code does. `Crossfade.FallbackCrossfadesUnknownEnvironment`
shows what the corrected optimizer gives.

## Left out

- React rendering, hooks, JSX trees and the drei/three.js components are left out; only the arithmetic and the decisions are lifted out of them. This includes `EnvironmentPreloader`, `EnvironmentLoadingIndicator`, `useFrame` and `requestAnimationFrame`.
- The layer-visibility tests in `EnvironmentCrossfade` are rendering details and are left out: the 0.01 threshold, the `Math.max(…, 0)` on intensities and the background flags (src/components/EnvironmentTransition.jsx:72-93).
- Host probing is not modelled. The user-agent regular expression, `navigator` and `window` become parameters: `HostSignals` and the arguments of `UseMobileManager`. So does the first render of `SmartEnvironmentManager`, before its effect has run.
- Clock reads (`Date.now`, `performance.now`) become `now` parameters in milliseconds. The monitor takes the frame's FPS sample directly.
- FrameMonitor.RecordFrame: requires a positive FPS sample. A zero frame delta would divide by zero and give Infinity in the source.
- Easing.Progress: requires a positive duration. Every caller passes a positive constant (0.8, 1.0, 1.2 or 1.5).
- IEEE-754 behaviour is not modelled: numbers are `real`, and `Math.round` is `floor(x + 0.5)`. `NaN` from arithmetic on a missing field is modelled as an absent (`None`) field.
- Inherited object-prototype keys (such as `toString`) are treated like any other unknown key in every table lookup.
- The global `performanceMonitor` singleton is left out, and so is the callback that `SmartEnvironmentController` adds on every effect run without removing it. This is lifecycle plumbing. Observers are opaque ids; what they do with an event is not modelled.
- `useEnvironmentPreloader` is promise plumbing around a copy of the configuration table, so it is left out. Its effect on the manager is the `isLoading` flag, cleared by `FinishLoading`.
- EnvironmentManager.ManagerFrame: models one animation timeline per transition. In the source, the transition effect also depends on a completion callback that is recreated on every render, so extra animation loops get started while a transition runs. Each re-render during a transition resets the progress to 0 and starts a new loop, and the newest loop's first frame stores a progress near smoothstep(0) (src/components/EnvironmentManager.jsx:131-156 and 200). So the rendered intensity stays near half the transition intensity until the first loop completes after 0.8 s, and then jumps to the full intensity. The model's single smoothstep ramp from half to full (`EffectiveIntensity`) does not show this. The first loop also keeps the target it captured at its start: if the request changes from B to C during a transition from A to B, the source first makes B current when the first loop completes, and only later C. The model restarts one timeline and goes from A straight to C.
- Default argument values are explicit arguments: a material type of `standard`, a device class of `desktop`, intensity 1.0 and the durations.
- `src/App.jsx` is left out: its expand/collapse uses gsap timelines over DOM geometry. `src/hooks/useSidebarManager.js` is left out because it is timer-driven visibility.
- The pure UI and styling files are left out. `src/config/materialPresets.js` is left out because it is a static table.

=== FILE: common.dfy ===
/** Small shared vocabulary: an Option for values a JavaScript object may lack,
    and the number idioms the quality controller relies on (`Math.min`,
    `Math.max`, `Math.round` and `x || fallback` on a number). */
module Common {

  /** A value that may be absent (`undefined` in JavaScript). */
  datatype Option<+T> = None | Some(value: T) {

    /** The value, or `default` when absent. */
    function GetOr(default: T): T {
      match this
      case Some(v) => v
      case None => default
    }
  }

  function MinInt(a: int, b: int): (r: int)
    ensures r <= a && r <= b
    ensures r == a || r == b
  {
    if a <= b then a else b
  }

  function MaxInt(a: int, b: int): (r: int)
    ensures r >= a && r >= b
    ensures r == a || r == b
  {
    if a >= b then a else b
  }

  function MinReal(a: real, b: real): (r: real)
    ensures r <= a && r <= b
    ensures r == a || r == b
  {
    if a <= b then a else b
  }

  /** `Math.max(lo, Math.min(hi, x))`. */
  function Clamp(x: int, lo: int, hi: int): (r: int)
    requires lo <= hi
    ensures lo <= r <= hi
    ensures lo <= x <= hi ==> r == x
    ensures x < lo ==> r == lo
    ensures x > hi ==> r == hi
  {
    MaxInt(lo, MinInt(hi, x))
  }

  /** `Math.round`: halves round towards positive infinity. */
  function Round(x: real): (r: int)
    ensures x - 0.5 < r as real <= x + 0.5
  {
    (x + 0.5).Floor
  }

  /** `x || d` for a number `x`: zero is falsy, so it is replaced by `d`. */
  function OrInt(x: int, d: int): (r: int)
    ensures x != 0 ==> r == x
    ensures x == 0 ==> r == d
  {
    if x == 0 then d else x
  }

  /** `x || d` for a real-valued number. */
  function OrReal(x: real, d: real): (r: real)
    ensures x != 0.0 ==> r == x
    ensures x == 0.0 ==> r == d
  {
    if x == 0.0 then d else x
  }
}

=== FILE: crossfade.dfy ===
/** The arithmetic and decisions of the crossfading environment components:
    the transition clock of `EnvironmentCrossfade`, its outgoing/incoming
    intensity split, and the render choice of `SmartEnvironmentController`. */
module Crossfade {
  import opened Common
  import opened Easing
  import opened DeviceProfile
  import opened Optimizer

  // ---------------------------------------------------------------------------
  // EnvironmentCrossfade
  // ---------------------------------------------------------------------------

  /** The component's state; `transitionProgress` holds the eased progress
      and `startTime` a clock reading in milliseconds. */
  datatype CrossfadeState = CrossfadeState(isTransitioning: bool, transitionProgress: real, startTime: real)

  const DefaultTransitionDuration: real := 1.2

  function InitialCrossfade(): CrossfadeState {
    CrossfadeState(false, 0.0, 0.0)
  }

  /** The effect that runs when the current or target environment changes:
      a transition (re)starts from zero whenever they differ. */
  function OnEnvironmentsChanged(s: CrossfadeState, current: string, target: string, now: real): (r: CrossfadeState)
    ensures current != target ==> r == CrossfadeState(true, 0.0, now)
    ensures current == target ==> r == s
  {
    if current != target then CrossfadeState(true, 0.0, now) else s
  }

  datatype FrameOutcome = FrameOutcome(state: CrossfadeState, completed: bool)

  /** Seconds since the transition started. */
  function Elapsed(s: CrossfadeState, now: real): real {
    (now - s.startTime) / 1000.0
  }

  /** The per-frame update: advance the eased progress and, on the first frame
      whose raw progress reaches 1, stop and signal completion. */
  function CrossfadeFrame(s: CrossfadeState, now: real, duration: real): (r: FrameOutcome)
    requires duration > 0.0
    ensures !s.isTransitioning ==> r == FrameOutcome(s, false)
    ensures s.isTransitioning ==>
              && r.state.startTime == s.startTime
              && r.state.transitionProgress == EaseInOutCubic(Progress(Elapsed(s, now), duration))
              && (r.completed <==> Elapsed(s, now) >= duration)
              && r.state.isTransitioning == !r.completed
    ensures s.isTransitioning && now >= s.startTime ==> 0.0 <= r.state.transitionProgress <= 1.0
    ensures r.completed ==> r.state.transitionProgress == 1.0 && !r.state.isTransitioning
  {
    if !s.isTransitioning then FrameOutcome(s, false)
    else
      var progress := Progress(Elapsed(s, now), duration);
      var next := s.(transitionProgress := EaseInOutCubic(progress));
      if progress >= 1.0 then FrameOutcome(next.(isTransitioning := false), true)
      else FrameOutcome(next, false)
  }

  /** Completion fires once: the frames after it change nothing and signal
      nothing, whatever the clock says. */
  lemma CompletionIsOneShot(s: CrossfadeState, now: real, later: real, duration: real)
    requires duration > 0.0
    requires CrossfadeFrame(s, now, duration).completed
    ensures var done := CrossfadeFrame(s, now, duration).state;
            CrossfadeFrame(done, later, duration) == FrameOutcome(done, false)
  {
  }

  /** Once completion has set the current environment to the target, the
      change effect does not restart the transition. */
  lemma CompletedTransitionStaysSettled(s: CrossfadeState, now: real, later: real, duration: real, target: string)
    requires duration > 0.0
    requires CrossfadeFrame(s, now, duration).completed
    ensures var done := CrossfadeFrame(s, now, duration).state;
            var settled := OnEnvironmentsChanged(done, target, target, later);
            settled == done && !CrossfadeFrame(settled, later, duration).completed
  {
  }

  /** A started transition completes on the first frame at or past its
      duration, and not before. */
  lemma TransitionCompletesAfterDuration(current: string, target: string, start: real, now: real, duration: real)
    requires current != target && duration > 0.0
    ensures var s := OnEnvironmentsChanged(InitialCrossfade(), current, target, start);
            CrossfadeFrame(s, now, duration).completed <==> now - start >= 1000.0 * duration
  {
  }

  /** With the component's own default duration of 1.2 s, a transition
      completes on the first frame at least 1200 ms after its start. */
  lemma DefaultDurationCompletesAt1200(current: string, target: string, start: real, now: real)
    requires current != target
    ensures var s := OnEnvironmentsChanged(InitialCrossfade(), current, target, start);
            CrossfadeFrame(s, now, DefaultTransitionDuration).completed <==> now - start >= 1200.0
  {
    TransitionCompletesAfterDuration(current, target, start, now, DefaultTransitionDuration);
  }

  datatype Intensities = Intensities(outgoing: real, incoming: real)

  /** The intensity of the outgoing (current) and incoming (target)
      environment. */
  function CrossfadeIntensities(s: CrossfadeState, current: string, target: string, intensity: real): (r: Intensities)
    // the incoming environment takes the ease-out-quart weight of the stored
    // (already cubic-eased) progress, the outgoing one the rest
    ensures s.isTransitioning ==>
              r.incoming == intensity * EaseOutQuart(s.transitionProgress) && r.outgoing == intensity - r.incoming
    ensures s.isTransitioning ==> r.outgoing + r.incoming == intensity
    ensures s.isTransitioning && intensity >= 0.0 && 0.0 <= s.transitionProgress <= 1.0 ==>
              0.0 <= r.outgoing <= intensity && 0.0 <= r.incoming <= intensity
    ensures s.isTransitioning && s.transitionProgress == 0.0 ==> r == Intensities(intensity, 0.0)
    ensures s.isTransitioning && s.transitionProgress == 1.0 ==> r == Intensities(0.0, intensity)
    ensures !s.isTransitioning && current == target ==> r == Intensities(intensity, 0.0)
    ensures !s.isTransitioning && current != target ==> r == Intensities(0.0, intensity)
  {
    if s.isTransitioning then
      var w := EaseOutQuart(s.transitionProgress);
      WeightSplit(intensity, w);
      Intensities(intensity * (1.0 - w), intensity * w)
    else if current == target then Intensities(intensity, 0.0)
    else Intensities(0.0, intensity)
  }

  /** Splitting a non-negative amount by a weight in [0,1]. */
  lemma WeightSplit(x: real, w: real)
    ensures x >= 0.0 && 0.0 <= w <= 1.0 ==> 0.0 <= x * w <= x && 0.0 <= x * (1.0 - w) <= x
  {
    if x >= 0.0 && 0.0 <= w <= 1.0 {
      assert x * w + x * (1.0 - w) == x;
      assert x * w >= 0.0;
      assert x * (1.0 - w) >= 0.0;
    }
  }

  /** At every frame of a transition driven by a clock that has not run
      backwards, the split stays within [0, intensity]. */
  lemma SplitBoundedDuringTransition(s: CrossfadeState, now: real, duration: real, current: string, target: string, intensity: real)
    requires duration > 0.0 && s.isTransitioning && now >= s.startTime && intensity >= 0.0
    ensures var r := CrossfadeIntensities(CrossfadeFrame(s, now, duration).state, current, target, intensity);
            0.0 <= r.outgoing <= intensity && 0.0 <= r.incoming <= intensity
  {
  }

  // ---------------------------------------------------------------------------
  // SmartEnvironmentController
  // ---------------------------------------------------------------------------

  /** What the controller renders. An intensity is `None` where the source
      multiplies by a missing setting and gets `NaN`. */
  datatype ControllerView =
    | Placeholder(preset: string, fixedIntensity: real)
    | Direct(preset: string, intensity: Option<real>)
    | Crossfading(preload: seq<string>, current: string, target: string, intensity: Option<real>, duration: real)

  const DefaultPreloadEnvironments: seq<string> := ["studio", "city", "sunset", "apartment"]

  /** How many environments to preload: 4 on a high tier, else 2. */
  function PreloadCount(tier: Tier): nat {
    if tier == High then 4 else 2
  }

  /** The controller's render decision. `profile` and `settings` are `None`
      until detection has run; `currentEnv` is the controller's own state and
      `environment` the requested one. */
  function ControllerRender(
    profile: Option<Profile>,
    settings: Option<Settings>,
    environment: string,
    currentEnv: string,
    intensity: real,
    preloadEnvironments: seq<string>,
    enableTransitions: bool): (v: ControllerView)
    ensures profile.None? || settings.None? ==> v == Placeholder("studio", 0.6)
    // once detection has run, the view is either direct or a crossfade
    ensures v.Placeholder? <==> profile.None? || settings.None?
    ensures profile.Some? && settings.Some? ==>
              (v.Direct? <==> profile.value.tier == Low || settings.value.enableTransitions != Some(true) || !enableTransitions)
    ensures v.Direct? ==> v.preset == environment && v.intensity == ScaleOpt(settings.value.intensity, intensity)
    ensures v.Crossfading? ==>
              && profile.value.tier != Low
              && v.current == currentEnv && v.target == environment
              && v.intensity == ScaleOpt(settings.value.intensity, intensity)
              && |v.preload| == MinInt(|preloadEnvironments|, PreloadCount(profile.value.tier))
              && v.preload == preloadEnvironments[..|v.preload|]
              && v.duration == (if profile.value.tier == High then 1.0 else 1.5)
  {
    if profile.None? || settings.None? then Placeholder("studio", 0.6)
    else
      var p, s := profile.value, settings.value;
      if p.tier == Low || s.enableTransitions != Some(true) || !enableTransitions then
        Direct(environment, ScaleOpt(s.intensity, intensity))
      else
        var n := MinInt(|preloadEnvironments|, PreloadCount(p.tier));
        Crossfading(preloadEnvironments[..n], currentEnv, environment,
                    ScaleOpt(s.intensity, intensity),
                    if p.tier == High then 1.0 else 1.5)
  }

  /** As written, an environment outside the optimizer's table is always
      rendered directly, with no usable intensity (`NaN` in the source). */
  lemma UnknownEnvironmentRendersWithoutIntensity(
    profile: Profile, environment: string, currentEnv: string, intensity: real,
    preloadEnvironments: seq<string>, enableTransitions: bool)
    requires environment !in KnownEnvironments
    ensures ControllerRender(Some(profile), Some(OptimizedEnvironmentSettings(environment, profile)),
                             environment, currentEnv, intensity, preloadEnvironments, enableTransitions)
            == Direct(environment, None)
  {
  }

  /** With the as-written optimizer, a crossfade only ever happens for a known
      environment and always carries a real intensity. */
  lemma CrossfadeOnlyForKnownEnvironments(
    profile: Profile, environment: string, currentEnv: string, intensity: real,
    preloadEnvironments: seq<string>, enableTransitions: bool)
    ensures var v := ControllerRender(Some(profile), Some(OptimizedEnvironmentSettings(environment, profile)),
                                      environment, currentEnv, intensity, preloadEnvironments, enableTransitions);
            v.Crossfading? ==> environment in KnownEnvironments && v.intensity.Some?
  {
  }

  /** With the studio fallback the controller crossfades on an unknown name
      exactly as it would on studio. */
  lemma FallbackCrossfadesUnknownEnvironment(
    profile: Profile, environment: string, currentEnv: string, intensity: real)
    requires environment !in KnownEnvironments && profile.tier == High
    ensures ControllerRender(Some(profile), Some(OptimizedEnvironmentSettingsWithFallback(environment, profile)),
                             environment, currentEnv, intensity, DefaultPreloadEnvironments, true)
            == Crossfading(DefaultPreloadEnvironments, currentEnv, environment, Some(1.0 * intensity), 1.0)
  {
  }

  /** A medium-tier device with the default list preloads studio and city
      and crossfades over 1.5 seconds. */
  lemma MediumTierPreloadsTwo(profile: Profile, environment: string, currentEnv: string, intensity: real)
    requires profile.tier == Medium && environment in KnownEnvironments
    ensures var v := ControllerRender(Some(profile), Some(OptimizedEnvironmentSettings(environment, profile)),
                                      environment, currentEnv, intensity, DefaultPreloadEnvironments, true);
            v.Crossfading? && v.preload == ["studio", "city"] && v.duration == 1.5
  {
  }
}

=== FILE: device_profile.dfy ===
/** One-shot device profiling: additive integer scoring of the host's
    signals, a coarse tier, and capability flags gated on the score. */
module DeviceProfile {
  import opened Common

  datatype Tier = Low | Medium | High

  /** What the host reports. Each numeric signal may be missing; the
      mobile flag is the outcome of the user-agent test. */
  datatype HostSignals = HostSignals(
    userAgentMobile: bool,
    hardwareConcurrency: Option<int>,
    deviceMemory: Option<real>,
    devicePixelRatio: Option<real>)

  datatype Capabilities = Capabilities(
    supportsShadows: bool,
    supportsHDRI: bool,
    supportsTransitions: bool,
    maxShadowMapSize: int,
    recommendedLightCount: int)

  datatype Profile = Profile(
    tier: Tier,
    score: int,
    isMobile: bool,
    cores: int,
    memory: real,
    pixelRatio: real,
    details: Capabilities)

  const BaselineScore: int := 50
  const HighTierScore: int := 70
  const LowTierScore: int := 40

  /** Signals after the `||` defaults: missing or zero becomes 4 cores,
      4 GB and a pixel ratio of 1. */
  function EffectiveCores(h: HostSignals): int {
    OrInt(h.hardwareConcurrency.GetOr(0), 4)
  }

  function EffectiveMemory(h: HostSignals): real {
    OrReal(h.deviceMemory.GetOr(0.0), 4.0)
  }

  function EffectivePixelRatio(h: HostSignals): real {
    OrReal(h.devicePixelRatio.GetOr(0.0), 1.0)
  }

  function CpuAdjustment(cores: int): int {
    if cores >= 8 then 20
    else if cores >= 6 then 10
    else if cores <= 2 then -20
    else 0
  }

  function MemoryAdjustment(memory: real): int {
    if memory >= 8.0 then 15
    else if memory >= 4.0 then 5
    else if memory <= 2.0 then -15
    else 0
  }

  /** The unclamped score; the tier and the capability flags are read
      from this value, only the reported `score` is clamped. */
  function RawScore(cores: int, memory: real, isMobile: bool, pixelRatio: real): (s: int)
    ensures -20 <= s <= 85
  {
    BaselineScore + CpuAdjustment(cores) + MemoryAdjustment(memory)
    - (if isMobile then 25 else 0)
    - (if pixelRatio > 2.0 then 10 else 0)
  }

  function HostRawScore(h: HostSignals): int {
    RawScore(EffectiveCores(h), EffectiveMemory(h), h.userAgentMobile, EffectivePixelRatio(h))
  }

  function TierOf(raw: int): (t: Tier)
    ensures t == High <==> raw >= HighTierScore
    ensures t == Low <==> raw <= LowTierScore
  {
    if raw >= HighTierScore then High
    else if raw <= LowTierScore then Low
    else Medium
  }

  function CapabilitiesOf(raw: int, isMobile: bool): Capabilities {
    Capabilities(
      raw >= 50,
      raw >= 40,
      raw >= 60,
      if isMobile then 1024 else if raw >= 70 then 2048 else 1512,
      if isMobile then 2 else if raw >= 70 then 4 else 3)
  }

  /** `detectDevicePerformance` with the host probe turned into a parameter. */
  function DetectDevicePerformance(h: HostSignals): (p: Profile)
    ensures 0 <= p.score <= 100
    ensures p.score == Clamp(HostRawScore(h), 0, 100)
    // the tier, computed from the raw score, agrees with the clamped score
    ensures p.tier == High <==> p.score >= HighTierScore
    ensures p.tier == Low <==> p.score <= LowTierScore
    ensures p.details.supportsShadows <==> HostRawScore(h) >= 50
    ensures p.details.supportsHDRI <==> HostRawScore(h) >= 40
    ensures p.details.supportsTransitions <==> HostRawScore(h) >= 60
    ensures p.details.supportsTransitions ==> p.details.supportsShadows
    ensures p.details.supportsShadows ==> p.details.supportsHDRI
    ensures p.details.maxShadowMapSize in {1024, 1512, 2048}
    ensures p.isMobile ==> p.details.maxShadowMapSize == 1024 && p.details.recommendedLightCount == 2
    ensures !p.isMobile && HostRawScore(h) >= 70 ==>
              p.details.maxShadowMapSize == 2048 && p.details.recommendedLightCount == 4
    ensures !p.isMobile && HostRawScore(h) < 70 ==>
              p.details.maxShadowMapSize == 1512 && p.details.recommendedLightCount == 3
    ensures p.tier == High ==> p.details.supportsTransitions
    ensures p.tier == Low ==> !p.details.supportsShadows
    ensures p.isMobile == h.userAgentMobile
    ensures p.cores == EffectiveCores(h) && p.memory == EffectiveMemory(h)
    ensures p.pixelRatio == EffectivePixelRatio(h)
  {
    var raw := HostRawScore(h);
    Profile(
      TierOf(raw),
      Clamp(raw, 0, 100),
      h.userAgentMobile,
      EffectiveCores(h),
      EffectiveMemory(h),
      EffectivePixelRatio(h),
      CapabilitiesOf(raw, h.userAgentMobile))
  }

  /** A missing or zero signal reads as 4 cores, 4 GB and pixel ratio 1. */
  lemma MissingSignalsUseDefaults(mobile: bool)
    ensures var p := DetectDevicePerformance(HostSignals(mobile, None, None, None));
            p.cores == 4 && p.memory == 4.0 && p.pixelRatio == 1.0
    ensures DetectDevicePerformance(HostSignals(mobile, None, None, None))
         == DetectDevicePerformance(HostSignals(mobile, Some(0), Some(0.0), Some(0.0)))
  {
  }

  /** More effective cores never lower the raw score. */
  lemma RawScoreMonotoneInCores(c1: int, c2: int, memory: real, isMobile: bool, ratio: real)
    requires c1 <= c2
    ensures RawScore(c1, memory, isMobile, ratio) <= RawScore(c2, memory, isMobile, ratio)
  {
  }

  /** More effective memory never lowers the raw score. */
  lemma RawScoreMonotoneInMemory(cores: int, m1: real, m2: real, isMobile: bool, ratio: real)
    requires m1 <= m2
    ensures RawScore(cores, m1, isMobile, ratio) <= RawScore(cores, m2, isMobile, ratio)
  {
  }

  /** The mobile and high-density flags only ever lower the raw score. */
  lemma PenaltiesOnlyLower(cores: int, memory: real, ratio: real)
    ensures RawScore(cores, memory, true, ratio) == RawScore(cores, memory, false, ratio) - 25
    ensures ratio > 2.0 ==> RawScore(cores, memory, false, ratio) == RawScore(cores, memory, false, 1.0) - 10
    ensures ratio <= 2.0 ==> RawScore(cores, memory, false, ratio) == RawScore(cores, memory, false, 1.0)
  {
  }

  /** The reported score is monotone in the effective core count and memory
      when every other signal is held fixed. */
  lemma ScoreMonotoneInHost(h1: HostSignals, h2: HostSignals)
    requires h1.userAgentMobile == h2.userAgentMobile
    requires EffectivePixelRatio(h1) == EffectivePixelRatio(h2)
    requires EffectiveCores(h1) <= EffectiveCores(h2)
    requires EffectiveMemory(h1) <= EffectiveMemory(h2)
    ensures DetectDevicePerformance(h1).score <= DetectDevicePerformance(h2).score
  {
    var mobile, ratio := h1.userAgentMobile, EffectivePixelRatio(h1);
    RawScoreMonotoneInCores(EffectiveCores(h1), EffectiveCores(h2), EffectiveMemory(h1), mobile, ratio);
    RawScoreMonotoneInMemory(EffectiveCores(h2), EffectiveMemory(h1), EffectiveMemory(h2), mobile, ratio);
  }

  /** Tier boundaries are exact. */
  lemma TierBoundaries()
    ensures TierOf(70) == High && TierOf(69) != High
    ensures TierOf(40) == Low && TierOf(41) != Low
  {
  }

  /** 2 cores, 2 GB, mobile, pixel ratio 3: raw -20, reported 0, low tier. */
  lemma LowEndPhoneScenario()
    ensures var h := HostSignals(true, Some(2), Some(2.0), Some(3.0));
            var p := DetectDevicePerformance(h);
            HostRawScore(h) == -20 && p.score == 0 && p.tier == Low
            && p.details.maxShadowMapSize == 1024 && p.details.recommendedLightCount == 2
  {
  }

  /** 8 cores, 8 GB, desktop, pixel ratio 1: score 85, high tier. */
  lemma HighEndDesktopScenario()
    ensures var p := DetectDevicePerformance(HostSignals(false, Some(8), Some(8.0), Some(1.0)));
            p.score == 85 && p.tier == High && p.details.maxShadowMapSize == 2048
            && p.details.recommendedLightCount == 4
  {
  }
}

=== FILE: easing.dfy ===
/** The easing curves and the clamped progress used by both transition
    components. */
module Easing {

  function Cube(x: real): real { x * x * x }

  /** A product of two numbers in [0,1] stays in [0,1] and below each factor. */
  lemma UnitProduct(a: real, b: real)
    requires 0.0 <= a <= 1.0 && 0.0 <= b <= 1.0
    ensures 0.0 <= a * b <= a && a * b <= b
  {
  }

  lemma NonNegativeProduct(a: real, b: real)
    requires a >= 0.0 && b >= 0.0
    ensures a * b >= 0.0
  {
  }

  lemma UnitCube(u: real)
    ensures 0.0 <= u <= 1.0 ==> 0.0 <= Cube(u) <= u
  {
    if 0.0 <= u <= 1.0 {
      UnitProduct(u, u);
      UnitProduct(u * u, u);
    }
  }

  /** `easeInOutCubic`. */
  function EaseInOutCubic(t: real): (r: real)
    ensures 0.0 <= t <= 1.0 ==> 0.0 <= r <= 1.0
    ensures 0.0 <= t < 0.5 ==> r <= t
    ensures 0.5 <= t <= 1.0 ==> t <= r
  {
    if t < 0.5 then
      UnitCube(2.0 * t);
      4.0 * t * t * t
    else
      UnitCube(-2.0 * t + 2.0);
      1.0 - Cube(-2.0 * t + 2.0) / 2.0
  }

  /** The curve is point-symmetric about (0.5, 0.5). */
  lemma EaseInOutCubicSymmetric(t: real)
    ensures EaseInOutCubic(1.0 - t) == 1.0 - EaseInOutCubic(t)
  {
    if t < 0.5 {
      assert -2.0 * (1.0 - t) + 2.0 == 2.0 * t;
      assert Cube(2.0 * t) == 8.0 * t * t * t;
    } else if t > 0.5 {
      var u := -2.0 * t + 2.0;
      assert 1.0 - t == u / 2.0;
      assert 4.0 * (u / 2.0) * (u / 2.0) * (u / 2.0) == Cube(u) / 2.0;
    }
  }

  lemma EaseInOutCubicEndpoints()
    ensures EaseInOutCubic(0.0) == 0.0
    ensures EaseInOutCubic(0.5) == 0.5
    ensures EaseInOutCubic(1.0) == 1.0
  {
  }

  /** `u^4`. */
  function Quartic(u: real): real { Cube(u) * u }

  /** `easeOutQuart`: `1 - (1 - t)^4`. */
  function EaseOutQuart(t: real): (r: real)
    ensures 0.0 <= t <= 1.0 ==> 0.0 <= r <= 1.0
    // an ease-out curve runs ahead of linear progress
    ensures 0.0 <= t <= 1.0 ==> t <= r
  {
    QuarticBelow(1.0 - t);
    1.0 - Quartic(1.0 - t)
  }

  /** `u^4` lies in [0, u] for `u` in [0,1]. */
  lemma QuarticBelow(u: real)
    ensures 0.0 <= u <= 1.0 ==> 0.0 <= Quartic(u) <= u
  {
    if 0.0 <= u <= 1.0 {
      var c := Cube(u);
      UnitCube(u);
      UnitProduct(c, u);
      assert Quartic(u) == c * u;
    }
  }

  lemma EaseOutQuartEndpoints()
    ensures EaseOutQuart(0.0) == 0.0
    ensures EaseOutQuart(1.0) == 1.0
  {
  }

  /** The ease-in-out curve `p^2 (3 - 2p)` of the environment manager. */
  function Smoothstep(p: real): (r: real)
    ensures 0.0 <= p <= 1.0 ==> 0.0 <= r <= 1.0
  {
    SmoothstepInUnit(p);
    p * p * (3.0 - 2.0 * p)
  }

  lemma SmoothstepInUnit(p: real)
    ensures 0.0 <= p <= 1.0 ==> 0.0 <= p * p * (3.0 - 2.0 * p) <= 1.0
  {
    if 0.0 <= p <= 1.0 {
      var q, d := p * p, (1.0 - p) * (1.0 - p);
      UnitProduct(p, p);
      UnitProduct(1.0 - p, 1.0 - p);
      NonNegativeProduct(q, 3.0 - 2.0 * p);
      NonNegativeProduct(d, 1.0 + 2.0 * p);
      // 1 - p^2 (3 - 2p) == (1 - p)^2 (1 + 2p)
      assert 1.0 - q * (3.0 - 2.0 * p) == d * (1.0 + 2.0 * p);
    }
  }

  /** Smoothstep is point-symmetric about (0.5, 0.5). */
  lemma SmoothstepSymmetric(p: real)
    ensures Smoothstep(1.0 - p) == 1.0 - Smoothstep(p)
  {
    assert (1.0 - p) * (1.0 - p) * (3.0 - 2.0 * (1.0 - p)) == 1.0 - p * p * (3.0 - 2.0 * p);
  }

  lemma SmoothstepEndpoints()
    ensures Smoothstep(0.0) == 0.0 && Smoothstep(1.0) == 1.0
  {
  }

  /** `Math.min(elapsed / duration, 1)`. */
  function Progress(elapsed: real, duration: real): (p: real)
    requires duration > 0.0
    ensures p <= 1.0
    ensures elapsed >= 0.0 ==> 0.0 <= p
    ensures p == 1.0 <==> elapsed >= duration
    ensures elapsed < duration ==> p == elapsed / duration
  {
    var ratio := elapsed / duration;
    if ratio <= 1.0 then ratio else 1.0
  }
}

=== FILE: environment_manager.dfy ===
/** The HDRI environment manager: the environment configuration table with
    its studio fallback, the smoothstep transition and its intensity ramp,
    the manager's current/target bookkeeping, the simplified mobile lights
    and the choice between the two managers. */
module EnvironmentManager {
  import opened Common
  import opened Easing
  import DeviceProfile

  /** A colour with channels in [0,1]. */
  datatype Rgb = Rgb(r: real, g: real, b: real)

  datatype EnvironmentConfig = EnvironmentConfig(
    preset: string,
    intensity: real,
    description: string,
    kind: string,
    temperature: int,
    fallback: Rgb)

  const StudioConfig: EnvironmentConfig :=
    EnvironmentConfig("studio", 1.0, "Neutral professional lighting with even illumination", "neutral", 5500, Rgb(0.95, 0.95, 0.95))

  const EnvironmentConfigs: map<string, EnvironmentConfig> := map[
    "studio" := StudioConfig,
    "city" := EnvironmentConfig("city", 1.2, "Bright outdoor daylight with urban reflections", "bright", 6500, Rgb(0.7, 0.85, 1.0)),
    "park" := EnvironmentConfig("park", 1.1, "Natural daylight with green reflections", "natural", 6200, Rgb(0.75, 0.9, 0.8)),
    "sunset" := EnvironmentConfig("sunset", 0.8, "Warm golden hour lighting", "warm", 3200, Rgb(1.0, 0.7, 0.4)),
    "night" := EnvironmentConfig("night", 0.3, "Cool moonlit atmosphere", "cool", 4100, Rgb(0.4, 0.5, 0.8)),
    "apartment" := EnvironmentConfig("apartment", 0.4, "Warm interior lighting", "interior", 3800, Rgb(0.9, 0.8, 0.6))]

  const ConfiguredEnvironments: set<string> := {"studio", "city", "park", "sunset", "night", "apartment"}

  /** `ENVIRONMENT_CONFIGS[name] || ENVIRONMENT_CONFIGS.studio`. */
  function EnvironmentConfigFor(name: string): (c: EnvironmentConfig)
    ensures name in ConfiguredEnvironments ==> c.preset == name && c in EnvironmentConfigs.Values
    ensures name !in ConfiguredEnvironments ==> c == StudioConfig
    ensures 0.0 < c.intensity <= 1.2
    ensures 0.0 <= c.fallback.r <= 1.0 && 0.0 <= c.fallback.g <= 1.0 && 0.0 <= c.fallback.b <= 1.0
  {
    if name in EnvironmentConfigs then EnvironmentConfigs[name] else StudioConfig
  }

  /** The colour string `rgb(r*255, g*255, b*255)`, as channel values. */
  function To255(c: Rgb): (r: Rgb)
    ensures 0.0 <= c.r <= 1.0 ==> 0.0 <= r.r <= 255.0
    ensures 0.0 <= c.g <= 1.0 ==> 0.0 <= r.g <= 255.0
    ensures 0.0 <= c.b <= 1.0 ==> 0.0 <= r.b <= 255.0
  {
    Rgb(c.r * 255.0, c.g * 255.0, c.b * 255.0)
  }

  // ---------------------------------------------------------------------------
  // EnvironmentTransition: smoothstep progress and the intensity ramp
  // ---------------------------------------------------------------------------

  datatype TransitionState = TransitionState(isTransitioning: bool, transitionProgress: real, startTime: real)

  const ManagerTransitionDuration: real := 0.8

  datatype TransitionStep = TransitionStep(state: TransitionState, completed: bool)

  /** One run of the animation callback: the eased progress is stored and,
      once the raw progress reaches 1, the transition ends and completes. */
  function AnimateStep(t: TransitionState, now: real, duration: real): (r: TransitionStep)
    requires duration > 0.0
    ensures !t.isTransitioning ==> r == TransitionStep(t, false)
    ensures t.isTransitioning ==>
              var p := Progress((now - t.startTime) / 1000.0, duration);
              && r.state.transitionProgress == Smoothstep(p)
              && (r.completed <==> p >= 1.0)
              && r.state.isTransitioning == !r.completed
              && r.state.startTime == t.startTime
    ensures t.isTransitioning && now >= t.startTime ==> 0.0 <= r.state.transitionProgress <= 1.0
    ensures r.completed ==> r.state.transitionProgress == 1.0
  {
    if !t.isTransitioning then TransitionStep(t, false)
    else
      var p := Progress((now - t.startTime) / 1000.0, duration);
      var next := t.(transitionProgress := Smoothstep(p));
      if p < 1.0 then TransitionStep(next, false)
      else TransitionStep(next.(isTransitioning := false), true)
  }

  /** The intensity handed to the renderer: the full value at rest, ramped up
      from one half during a transition. */
  function EffectiveIntensity(t: TransitionState, intensity: real): (r: real)
    ensures !t.isTransitioning ==> r == intensity
    // a linear ramp from one half to all of the intensity
    ensures t.isTransitioning ==> r == intensity * (0.5 + 0.5 * t.transitionProgress)
    ensures t.isTransitioning && intensity >= 0.0 && 0.0 <= t.transitionProgress <= 1.0 ==>
              0.5 * intensity <= r <= intensity
    ensures t.isTransitioning && t.transitionProgress == 0.0 ==> r == 0.5 * intensity
    ensures t.isTransitioning && t.transitionProgress == 1.0 ==> r == intensity
  {
    if t.isTransitioning then
      RampBounds(intensity, t.transitionProgress);
      intensity * (0.5 + 0.5 * t.transitionProgress)
    else intensity
  }

  /** During a transition, more progress never lowers the intensity. */
  lemma EffectiveIntensityMonotone(t: TransitionState, intensity: real, p: real, q: real)
    requires t.isTransitioning && intensity >= 0.0 && p <= q
    ensures EffectiveIntensity(t.(transitionProgress := p), intensity) <= EffectiveIntensity(t.(transitionProgress := q), intensity)
  {
    assert intensity * (0.5 + 0.5 * q) - intensity * (0.5 + 0.5 * p) == 0.5 * (intensity * (q - p));
    assert intensity * (q - p) >= 0.0;
  }

  lemma RampBounds(x: real, p: real)
    ensures x >= 0.0 && 0.0 <= p <= 1.0 ==> 0.5 * x <= x * (0.5 + 0.5 * p) <= x
  {
    if x >= 0.0 && 0.0 <= p <= 1.0 {
      assert x * (0.5 + 0.5 * p) == 0.5 * x + 0.5 * (x * p);
      assert 0.0 <= x * p <= x;
    }
  }

  // ---------------------------------------------------------------------------
  // EnvironmentManager: current and target bookkeeping
  // ---------------------------------------------------------------------------

  datatype Manager = Manager(currentEnv: string, targetEnv: string, isLoading: bool, transition: TransitionState)

  /** A freshly mounted manager: loading, current and target both the
      requested environment, no transition. */
  function MountManager(environment: string): (m: Manager)
    ensures m.isLoading && m.currentEnv == environment && m.targetEnv == environment
    ensures !m.transition.isTransitioning
  {
    Manager(environment, environment, true, TransitionState(false, 0.0, 0.0))
  }

  /** The preloader has finished. */
  function FinishLoading(m: Manager): (r: Manager)
    ensures !r.isLoading && r == m.(isLoading := false)
  {
    m.(isLoading := false)
  }

  /** The effect on the requested environment: the target follows it only
      once loading is over and only when it differs from the current one. */
  function SyncTarget(m: Manager, environment: string): (r: Manager)
    ensures r == m || r == m.(targetEnv := environment)
    ensures r.targetEnv != m.targetEnv ==> !m.isLoading && environment != m.currentEnv
    ensures !m.isLoading && environment != m.currentEnv ==> r.targetEnv == environment
  {
    if environment != m.currentEnv && !m.isLoading then m.(targetEnv := environment) else m
  }

  /** The transition effect on current/target: starts only when they differ. */
  function StartTransition(m: Manager, now: real): (r: Manager)
    ensures m.currentEnv == m.targetEnv ==> r == m
    ensures m.currentEnv != m.targetEnv ==>
              r == m.(transition := TransitionState(true, 0.0, now))
  {
    if m.currentEnv != m.targetEnv then m.(transition := TransitionState(true, 0.0, now)) else m
  }

  /** One animation tick; completion adopts the target as current. */
  function ManagerFrame(m: Manager, now: real): (r: Manager)
    ensures r.targetEnv == m.targetEnv && r.isLoading == m.isLoading
    ensures r.currentEnv == m.currentEnv || r.currentEnv == m.targetEnv
    ensures !m.transition.isTransitioning ==> r == m
    // the tick keeps the start time and stores the smoothstep progress
    ensures m.transition.isTransitioning ==> r.transition == AnimateStep(m.transition, now, ManagerTransitionDuration).state
    ensures m.transition.isTransitioning && (now - m.transition.startTime) / 1000.0 >= ManagerTransitionDuration ==>
              r.currentEnv == m.targetEnv && !r.transition.isTransitioning
    ensures m.transition.isTransitioning && (now - m.transition.startTime) / 1000.0 < ManagerTransitionDuration ==>
              r.currentEnv == m.currentEnv && r.transition.isTransitioning
  {
    var step := AnimateStep(m.transition, now, ManagerTransitionDuration);
    if step.completed then m.(transition := step.state, currentEnv := m.targetEnv)
    else m.(transition := step.state)
  }

  /** The intensity passed to the transition: the requested intensity times
      the target environment's own. */
  function TransitionIntensity(m: Manager, intensity: real): (r: real)
    ensures r == intensity * EnvironmentConfigFor(m.targetEnv).intensity
    ensures m.targetEnv !in ConfiguredEnvironments ==> r == intensity * 1.0
    ensures intensity >= 0.0 ==> 0.0 <= r <= 1.2 * intensity
  {
    var c := EnvironmentConfigFor(m.targetEnv);
    intensity * c.intensity
  }

  function ManagerEffectiveIntensity(m: Manager, intensity: real): real {
    EffectiveIntensity(m.transition, TransitionIntensity(m, intensity))
  }

  datatype ManagerView =
    | LoadingLight(ambientIntensity: real, color: Rgb)
    | EnvironmentView(preset: string, environmentIntensity: real, extraAmbient: Option<(real, string)>)

  /** What the manager renders. */
  function ManagerRender(m: Manager, intensity: real): (v: ManagerView)
    ensures m.isLoading ==> v == LoadingLight(0.6, To255(EnvironmentConfigFor(m.targetEnv).fallback))
    ensures !m.isLoading ==>
              && v.EnvironmentView?
              && v.preset == EnvironmentConfigFor(m.targetEnv).preset
              && (v.extraAmbient.Some? <==> m.targetEnv in {"night", "sunset"})
    ensures !m.isLoading && !m.transition.isTransitioning ==>
              v.environmentIntensity == intensity * EnvironmentConfigFor(m.targetEnv).intensity
    ensures !m.isLoading ==> v.environmentIntensity == EffectiveIntensity(m.transition, TransitionIntensity(m, intensity))
    ensures !m.isLoading && m.transition.isTransitioning && intensity >= 0.0 && 0.0 <= m.transition.transitionProgress <= 1.0 ==>
              0.5 * TransitionIntensity(m, intensity) <= v.environmentIntensity <= TransitionIntensity(m, intensity)
    ensures !m.isLoading && m.targetEnv == "night" ==> v.extraAmbient == Some((0.1, "#4A6FA5"))
    ensures !m.isLoading && m.targetEnv == "sunset" ==> v.extraAmbient == Some((0.05, "#FF8C42"))
  {
    var c := EnvironmentConfigFor(m.targetEnv);
    if m.isLoading then LoadingLight(0.6, To255(c.fallback))
    else
      var extra := if m.targetEnv == "night" then Some((0.1, "#4A6FA5"))
                   else if m.targetEnv == "sunset" then Some((0.05, "#FF8C42"))
                   else None;
      EnvironmentView(c.preset, ManagerEffectiveIntensity(m, intensity), extra)
  }

  /** While loading, requests are ignored: the target stays put. */
  lemma NoRetargetWhileLoading(m: Manager, environment: string)
    requires m.isLoading
    ensures SyncTarget(m, environment) == m
  {
  }

  /** During a transition on a clock that has not run backwards, the
      rendered intensity lies between half and all of the transition
      intensity. */
  lemma ManagerIntensityBounded(m: Manager, now: real, intensity: real)
    requires m.transition.isTransitioning && now >= m.transition.startTime && intensity >= 0.0
    ensures var next := ManagerFrame(m, now);
            var full := TransitionIntensity(m, intensity);
            0.5 * full <= ManagerEffectiveIntensity(next, intensity) <= full
  {
  }

  /** A completed transition is settled: current equals target, and neither
      the transition effect nor a further tick changes anything. */
  lemma CompletedManagerIsSettled(m: Manager, now: real, later: real, again: real)
    requires m.transition.isTransitioning
    requires (now - m.transition.startTime) / 1000.0 >= ManagerTransitionDuration
    ensures var done := ManagerFrame(m, now);
            && done.currentEnv == done.targetEnv
            && !done.transition.isTransitioning
            && StartTransition(done, later) == done
            && ManagerFrame(done, again) == done
  {
  }

  /** A run of animation ticks at the given clock readings, oldest first. */
  function RunManagerFrames(m: Manager, times: seq<real>): Manager
  {
    if |times| == 0 then m
    else ManagerFrame(RunManagerFrames(m, times[..|times| - 1]), times[|times| - 1])
  }

  /** Ticks earlier than 800 ms after the start keep the transition running
      from the same start time, with current, target and loading unchanged. */
  lemma {:induction false} EarlyFramesKeepTransition(m: Manager, times: seq<real>)
    requires m.transition.isTransitioning
    requires forall i :: 0 <= i < |times| ==> times[i] - m.transition.startTime < 800.0
    ensures var r := RunManagerFrames(m, times);
            && r.transition.isTransitioning
            && r.transition.startTime == m.transition.startTime
            && r.currentEnv == m.currentEnv && r.targetEnv == m.targetEnv && r.isLoading == m.isLoading
  {
    if |times| > 0 {
      var before := times[..|times| - 1];
      assert forall i :: 0 <= i < |before| ==> before[i] == times[i];
      EarlyFramesKeepTransition(m, before);
    }
  }

  /** However often the clock ticks in between, a transition completes on the
      first tick at least 800 ms after its start: current becomes the target
      and the progress is 1. */
  lemma TransitionCompletesOnFirstLateFrame(m: Manager, times: seq<real>)
    requires m.transition.isTransitioning && |times| > 0
    requires forall i :: 0 <= i < |times| - 1 ==> times[i] - m.transition.startTime < 800.0
    requires times[|times| - 1] - m.transition.startTime >= 800.0
    ensures var r := RunManagerFrames(m, times);
            && r.currentEnv == m.targetEnv && r.targetEnv == m.targetEnv
            && !r.transition.isTransitioning && r.transition.transitionProgress == 1.0
  {
    var before := times[..|times| - 1];
    assert forall i :: 0 <= i < |before| ==> before[i] == times[i];
    EarlyFramesKeepTransition(m, before);
  }

  /** Switching a loaded manager from studio to city: the target follows,
      the transition starts, and 0.8 s later city is current and rendered at
      1.2 times the requested intensity. */
  lemma StudioToCityScenario(start: real, intensity: real)
    ensures var m0 := FinishLoading(MountManager("studio"));
            var m1 := StartTransition(SyncTarget(m0, "city"), start);
            var m2 := ManagerFrame(m1, start + 800.0);
            && m1.targetEnv == "city" && m1.transition.isTransitioning
            && m2.currentEnv == "city" && !m2.transition.isTransitioning
            && ManagerRender(m2, intensity) == EnvironmentView("city", intensity * 1.2, None)
  {
  }

  // ---------------------------------------------------------------------------
  // MobileEnvironmentManager and the choice of manager
  // ---------------------------------------------------------------------------

  datatype MobileLights = MobileLights(ambientIntensity: real, ambientColor: Rgb, directionalIntensity: real)

  /** The mobile manager's two lights. */
  function MobileEnvironmentLights(environment: string, intensity: real): (r: MobileLights)
    ensures r.ambientIntensity == 2.0 * r.directionalIntensity
    ensures intensity >= 0.0 ==> 0.0 <= r.directionalIntensity <= r.ambientIntensity <= intensity
    ensures r.ambientIntensity == 0.8 * intensity
    ensures r.ambientColor == To255(EnvironmentConfigFor(environment).fallback)
  {
    MobileLights(intensity * 0.8, To255(EnvironmentConfigFor(environment).fallback), intensity * 0.4)
  }

  /** The smart manager's probe, with the host signals as parameters: a
      mobile user agent, or at most 4 reported cores, or at most 4 GB of
      reported memory. A signal that is not reported never counts. */
  function UseMobileManager(userAgentMobile: bool, cores: Option<int>, memory: Option<real>): (r: bool)
    ensures !userAgentMobile && cores.None? && memory.None? ==> !r
    ensures userAgentMobile ==> r
    // each low-performance signal on its own selects the mobile manager ...
    ensures cores.Some? && cores.value <= 4 ==> r
    ensures memory.Some? && memory.value <= 4.0 ==> r
    // ... and nothing else does
    ensures r ==> userAgentMobile || (cores.Some? && cores.value <= 4) || (memory.Some? && memory.value <= 4.0)
  {
    userAgentMobile || (cores.Some? && cores.value <= 4) || (memory.Some? && memory.value <= 4.0)
  }

  /** Every host the profiler puts in the low tier gets the mobile manager. */
  lemma LowTierHostsGetMobileManager(h: DeviceProfile.HostSignals)
    requires DeviceProfile.DetectDevicePerformance(h).tier == DeviceProfile.Low
    ensures UseMobileManager(h.userAgentMobile, h.hardwareConcurrency, h.deviceMemory)
  {
  }
}

=== FILE: frame_monitor.dfy ===
/** The runtime frame-rate monitor as an explicit state record: a
    monitoring flag, a sliding window of at most 60 FPS samples and the
    registered observers. `RecordFrame` is one step that takes the frame's
    FPS sample and returns the new state with the deliveries it made. */
module FrameMonitor {
  import opened Common

  /** An observer, identified by its registration. */
  type CallbackId = nat

  datatype Suggestion = Good | Minor | Moderate | Severe

  datatype PerformanceEvent = PerformanceEvent(averageFPS: real, minFPS: real, suggestion: Suggestion)

  /** One invocation of one observer with one event. */
  datatype Delivery = Delivery(callback: CallbackId, event: PerformanceEvent)

  datatype Monitor = Monitor(frameRates: seq<real>, isMonitoring: bool, callbacks: seq<CallbackId>)

  datatype FrameResult = FrameResult(monitor: Monitor, deliveries: seq<Delivery>)

  const MaxSamples: nat := 60
  const JudgementSamples: nat := 30
  const AverageThreshold: real := 45.0
  const MinimumThreshold: real := 30.0

  /** The state every reachable monitor keeps. */
  ghost predicate Valid(m: Monitor) {
    && |m.frameRates| <= MaxSamples
    && forall i :: 0 <= i < |m.frameRates| ==> m.frameRates[i] > 0.0
  }

  /** The constructor. */
  function NewMonitor(): (m: Monitor)
    ensures Valid(m) && !m.isMonitoring && m.callbacks == [] && m.frameRates == []
  {
    Monitor([], false, [])
  }

  /** `startMonitoring`: switch on and empty the window. */
  function StartMonitoring(m: Monitor): (r: Monitor)
    ensures r.isMonitoring && r.frameRates == [] && r.callbacks == m.callbacks
    ensures Valid(r)
  {
    m.(isMonitoring := true, frameRates := [])
  }

  /** `stopMonitoring`: switch off; the window is kept. */
  function StopMonitoring(m: Monitor): (r: Monitor)
    ensures !r.isMonitoring && r.frameRates == m.frameRates && r.callbacks == m.callbacks
    ensures Valid(m) ==> Valid(r)
  {
    m.(isMonitoring := false)
  }

  /** `onPerformanceIssue`: register one more observer, after the others. */
  function OnPerformanceIssue(m: Monitor, callback: CallbackId): (r: Monitor)
    ensures r.callbacks == m.callbacks + [callback]
    ensures r.frameRates == m.frameRates && r.isMonitoring == m.isMonitoring
    ensures Valid(m) ==> Valid(r)
  {
    m.(callbacks := m.callbacks + [callback])
  }

  function Sum(s: seq<real>): real {
    if |s| == 0 then 0.0 else Sum(s[..|s| - 1]) + s[|s| - 1]
  }

  /** The mean of a non-empty window, never below its smallest sample. */
  function Average(s: seq<real>): (r: real)
    requires |s| > 0
    ensures Minimum(s) <= r
  {
    SumAtLeast(s, Minimum(s));
    QuotientAtLeast(Sum(s), |s| as real, Minimum(s));
    Sum(s) / |s| as real
  }

  /** A total of at least `n * bound` spread over `n` parts gives each at
      least `bound`. */
  lemma QuotientAtLeast(total: real, n: real, bound: real)
    requires n > 0.0 && total >= n * bound
    ensures total / n >= bound
  {
    assert total / n >= (n * bound) / n;
  }

  /** `Math.min(...s)` on a non-empty window. */
  function Minimum(s: seq<real>): (r: real)
    requires |s| > 0
    ensures r in s
    ensures forall i :: 0 <= i < |s| ==> r <= s[i]
  {
    if |s| == 1 then s[0] else MinReal(Minimum(s[..|s| - 1]), s[|s| - 1])
  }

  /** `frameRates.slice(-30)` on a window holding at least 30 samples. */
  function Recent(w: seq<real>): (r: seq<real>)
    requires |w| >= JudgementSamples
    ensures |r| == JudgementSamples
    ensures forall i :: 0 <= i < |r| ==> r[i] == w[|w| - JudgementSamples + i]
  {
    w[|w| - JudgementSamples..]
  }

  /** `getPerformanceSuggestion`: the first matching rule wins. */
  function GetPerformanceSuggestion(averageFPS: real, minFPS: real): (r: Suggestion)
    // "good" is exactly the case in which no event is dispatched
    ensures r == Good <==> averageFPS >= AverageThreshold && minFPS >= MinimumThreshold
    ensures r == Severe <==> averageFPS < 30.0
    ensures r == Moderate <==> 30.0 <= averageFPS < AverageThreshold
    ensures r == Minor <==> averageFPS >= AverageThreshold && minFPS < MinimumThreshold
  {
    if averageFPS < 30.0 then Severe
    else if averageFPS < AverageThreshold then Moderate
    else if minFPS < MinimumThreshold then Minor
    else Good
  }

  /** Append a sample, dropping the oldest one once past capacity. */
  function Slide(w: seq<real>, fps: real): (r: seq<real>)
    ensures |r| > 0 && r[|r| - 1] == fps
    ensures |w| < MaxSamples ==> |r| == |w| + 1
    ensures |w| <= MaxSamples ==> |r| <= MaxSamples
    ensures |w| >= MaxSamples ==> |r| == |w|
    // the result is what remains of the window and the new sample after
    // dropping from the old end
    ensures r == (w + [fps])[|w| + 1 - |r|..]
  {
    var pushed := w + [fps];
    if |pushed| > MaxSamples then pushed[1..] else pushed
  }

  /** The event the window calls for, if any. */
  function Judge(w: seq<real>): (e: Option<PerformanceEvent>)
    ensures |w| < JudgementSamples ==> e.None?
    ensures |w| >= JudgementSamples ==>
              (e.Some? <==> Average(w) < AverageThreshold || Minimum(Recent(w)) < MinimumThreshold)
    // an event reports the window's average and recent minimum and classifies
    // them as `getPerformanceSuggestion` does, never as good
    ensures e.Some? ==> |w| >= JudgementSamples && e.value.averageFPS == Average(w)
    ensures e.Some? ==> |w| >= JudgementSamples && e.value.minFPS == Minimum(Recent(w))
    ensures e.Some? ==> e.value.suggestion == GetPerformanceSuggestion(e.value.averageFPS, e.value.minFPS)
    ensures e.Some? ==> e.value.suggestion != Good
  {
    if |w| < JudgementSamples then None
    else
      var averageFPS := Average(w);
      var minFPS := Minimum(Recent(w));
      if averageFPS < AverageThreshold || minFPS < MinimumThreshold then
        Some(PerformanceEvent(averageFPS, minFPS, GetPerformanceSuggestion(averageFPS, minFPS)))
      else None
  }

  /** Every observer gets the event once, in registration order. */
  function Broadcast(callbacks: seq<CallbackId>, e: PerformanceEvent): (ds: seq<Delivery>)
    ensures |ds| == |callbacks|
    ensures forall i :: 0 <= i < |ds| ==> ds[i] == Delivery(callbacks[i], e)
  {
    seq(|callbacks|, i requires 0 <= i < |callbacks| => Delivery(callbacks[i], e))
  }

  /** `recordFrame` with the frame's FPS sample given (the source derives it
      from the time since the previous frame). */
  function RecordFrame(m: Monitor, fps: real): (r: FrameResult)
    requires fps > 0.0
    ensures !m.isMonitoring ==> r == FrameResult(m, [])
    ensures m.isMonitoring ==>
              r.monitor == m.(frameRates := Slide(m.frameRates, fps))
    ensures |r.monitor.frameRates| < JudgementSamples ==> r.deliveries == []
    ensures m.isMonitoring && |r.monitor.frameRates| >= JudgementSamples ==>
              var w := r.monitor.frameRates;
              (r.deliveries != [] <==>
                 m.callbacks != [] && (Average(w) < AverageThreshold || Minimum(Recent(w)) < MinimumThreshold))
    ensures r.deliveries == [] || |r.deliveries| == |m.callbacks|
    // every observer, in registration order, gets one and the same event
    ensures forall i :: 0 <= i < |r.deliveries| ==>
              r.deliveries[i].callback == m.callbacks[i] && r.deliveries[i].event == r.deliveries[0].event
    // that event is the one the new window calls for
    ensures r.deliveries != [] ==> m.isMonitoring && Judge(r.monitor.frameRates) == Some(r.deliveries[0].event)
  {
    if !m.isMonitoring then FrameResult(m, [])
    else
      var w := Slide(m.frameRates, fps);
      var next := m.(frameRates := w);
      match Judge(w)
      case None => FrameResult(next, [])
      case Some(e) => FrameResult(next, Broadcast(m.callbacks, e))
  }

  /** Recording a frame keeps the window within capacity and positive. */
  lemma RecordFrameKeepsValid(m: Monitor, fps: real)
    requires Valid(m) && fps > 0.0
    ensures Valid(RecordFrame(m, fps).monitor)
  {
    if m.isMonitoring {
      var w := Slide(m.frameRates, fps);
      forall i | 0 <= i < |w|
        ensures w[i] > 0.0
      {
        if i < |w| - 1 {
          assert w[i] == m.frameRates[|m.frameRates| + 1 - |w| + i];
        }
      }
    }
  }

  /** A run of frames, oldest first, with all deliveries in order. */
  function RunFrames(m: Monitor, samples: seq<real>): FrameResult
    requires forall i :: 0 <= i < |samples| ==> samples[i] > 0.0
  {
    if |samples| == 0 then FrameResult(m, [])
    else
      var before := RunFrames(m, samples[..|samples| - 1]);
      var last := RecordFrame(before.monitor, samples[|samples| - 1]);
      FrameResult(last.monitor, before.deliveries + last.deliveries)
  }

  /** Running one more frame is recording it after the run. */
  lemma RunFramesAppend(m: Monitor, samples: seq<real>, fps: real)
    requires forall i :: 0 <= i < |samples| ==> samples[i] > 0.0
    requires fps > 0.0
    ensures var before := RunFrames(m, samples);
            var last := RecordFrame(before.monitor, fps);
            RunFrames(m, samples + [fps]) == FrameResult(last.monitor, before.deliveries + last.deliveries)
  {
    assert (samples + [fps])[..|samples|] == samples;
  }

  /** However many frames are recorded, the window stays within capacity. */
  lemma {:induction false} RunFramesKeepsValid(m: Monitor, samples: seq<real>)
    requires Valid(m)
    requires forall i :: 0 <= i < |samples| ==> samples[i] > 0.0
    ensures Valid(RunFrames(m, samples).monitor)
    ensures RunFrames(m, samples).monitor.callbacks == m.callbacks
    ensures RunFrames(m, samples).monitor.isMonitoring == m.isMonitoring
  {
    if |samples| > 0 {
      RunFramesKeepsValid(m, samples[..|samples| - 1]);
      RecordFrameKeepsValid(RunFrames(m, samples[..|samples| - 1]).monitor, samples[|samples| - 1]);
    }
  }

  /** After `stopMonitoring`, recorded frames change nothing and emit
      nothing. */
  lemma {:induction false} StoppedMonitorIgnoresFrames(m: Monitor, samples: seq<real>)
    requires !m.isMonitoring
    requires forall i :: 0 <= i < |samples| ==> samples[i] > 0.0
    ensures RunFrames(m, samples) == FrameResult(m, [])
  {
    if |samples| > 0 {
      StoppedMonitorIgnoresFrames(m, samples[..|samples| - 1]);
    }
  }

  lemma {:induction false} SumAtLeast(s: seq<real>, bound: real)
    requires forall i :: 0 <= i < |s| ==> s[i] >= bound
    ensures Sum(s) >= |s| as real * bound
  {
    if |s| > 0 {
      SumAtLeast(s[..|s| - 1], bound);
    }
  }

  /** The average of samples that are all at least `bound` is at least `bound`. */
  lemma AverageAtLeast(s: seq<real>, bound: real)
    requires |s| > 0
    requires forall i :: 0 <= i < |s| ==> s[i] >= bound
    ensures Average(s) >= bound
  {
    assert Minimum(s) in s;
  }

  /** A window whose every sample is at least 45 FPS calls for no event. */
  lemma HealthyWindowNeedsNoEvent(w: seq<real>)
    requires forall i :: 0 <= i < |w| ==> w[i] >= AverageThreshold
    ensures Judge(w).None?
  {
    if |w| >= JudgementSamples {
      AverageAtLeast(w, AverageThreshold);
      var recent := Recent(w);
      assert Minimum(recent) in recent;
    }
  }

  /** A window whose every sample is at least 45 FPS dispatches nothing. */
  lemma HealthyWindowIsQuiet(m: Monitor, fps: real)
    requires fps > 0.0
    requires forall i :: 0 <= i < |Slide(m.frameRates, fps)| ==> Slide(m.frameRates, fps)[i] >= AverageThreshold
    ensures RecordFrame(m, fps).deliveries == []
  {
    HealthyWindowNeedsNoEvent(Slide(m.frameRates, fps));
  }

  /** `n` samples all equal to `x`. */
  function Constant(x: real, n: nat): (s: seq<real>)
    ensures |s| == n
  {
    seq(n, _ => x)
  }

  lemma {:induction false} SumConstant(x: real, n: nat)
    ensures Sum(Constant(x, n)) == n as real * x
  {
    if n > 0 {
      assert Constant(x, n)[..n - 1] == Constant(x, n - 1);
      SumConstant(x, n - 1);
    }
  }

  /** From a freshly started monitor, n <= 60 frames at a steady rate fill
      the window with that rate, and fewer than 30 of them emit nothing. */
  lemma {:induction false} SteadyRun(m: Monitor, x: real, n: nat)
    requires m.isMonitoring && m.frameRates == []
    requires x > 0.0 && n <= MaxSamples
    ensures RunFrames(m, Constant(x, n)).monitor == m.(frameRates := Constant(x, n))
    ensures n < JudgementSamples ==> RunFrames(m, Constant(x, n)).deliveries == []
  {
    if n == 0 {
      assert Constant(x, 0) == [];
    } else {
      SteadyRun(m, x, n - 1);
      SteadyRunGrows(m, x, n - 1);
    }
  }

  /** The inductive step of a steady run: a run of k frames that filled the
      window with k equal samples is followed by frame k + 1. */
  lemma SteadyRunGrows(m: Monitor, x: real, k: nat)
    requires m.isMonitoring && x > 0.0 && k < MaxSamples
    requires RunFrames(m, Constant(x, k)).monitor == m.(frameRates := Constant(x, k))
    requires k < JudgementSamples ==> RunFrames(m, Constant(x, k)).deliveries == []
    ensures RunFrames(m, Constant(x, k + 1)).monitor == m.(frameRates := Constant(x, k + 1))
    ensures k + 1 < JudgementSamples ==> RunFrames(m, Constant(x, k + 1)).deliveries == []
  {
    var t := Constant(x, k + 1);
    ConstantPrefix(x, k);
    RunFramesLast(m, t);
    SteadyStep(m, x, k);
  }

  /** The last sample of a run is recorded on the monitor the rest of the run
      leaves behind. */
  lemma RunFramesLast(m: Monitor, t: seq<real>)
    requires forall i :: 0 <= i < |t| ==> t[i] > 0.0
    requires |t| > 0
    ensures var before := RunFrames(m, t[..|t| - 1]);
            var last := RecordFrame(before.monitor, t[|t| - 1]);
            && RunFrames(m, t).monitor == last.monitor
            && RunFrames(m, t).deliveries == before.deliveries + last.deliveries
  {
  }

  /** One more frame of a steady run: the window grows by that sample, and
      while it is shorter than 30 nothing is emitted. */
  lemma SteadyStep(m: Monitor, x: real, k: nat)
    requires m.isMonitoring && x > 0.0 && k < MaxSamples
    ensures var r := RecordFrame(m.(frameRates := Constant(x, k)), x);
            && r.monitor == m.(frameRates := Constant(x, k + 1))
            && (k + 1 < JudgementSamples ==> r.deliveries == [])
  {
    SlideConstant(x, k);
  }

  lemma ConstantPrefix(x: real, n: nat)
    ensures Constant(x, n + 1)[..n] == Constant(x, n)
  {
  }

  lemma ConstantSnoc(x: real, n: nat)
    ensures Constant(x, n) + [x] == Constant(x, n + 1)
  {
  }

  /** Below capacity, a sample equal to all the others extends the window. */
  lemma SlideConstant(x: real, n: nat)
    requires n < MaxSamples
    ensures Slide(Constant(x, n), x) == Constant(x, n + 1)
  {
    ConstantSnoc(x, n);
  }

  lemma MinimumConstant(x: real, n: nat)
    requires n > 0
    ensures Minimum(Constant(x, n)) == x
  {
    assert Minimum(Constant(x, n)) in Constant(x, n);
  }

  /** A full window at a steady rate below 30 FPS calls for a severe event. */
  lemma SteadySlowWindowIsSevere(x: real)
    requires 0.0 < x < 30.0
    ensures Judge(Constant(x, 30)) == Some(PerformanceEvent(x, x, Severe))
  {
    var w := Constant(x, 30);
    SumConstant(x, 30);
    assert Average(w) == x;
    assert Recent(w) == w;
    MinimumConstant(x, 30);
  }

  /** The monitor as an app starts it: one observer registered, then
      switched on. */
  function StartedWith(callback: CallbackId): (m: Monitor)
    ensures m.isMonitoring && m.frameRates == [] && m.callbacks == [callback]
  {
    StartMonitoring(OnPerformanceIssue(NewMonitor(), callback))
  }

  /** 29 frames, even at a very low rate, emit nothing. */
  lemma TwentyNineFramesAreQuiet(callback: CallbackId, x: real)
    requires x > 0.0
    ensures RunFrames(StartedWith(callback), Constant(x, 29)).deliveries == []
  {
    SteadyRun(StartedWith(callback), x, 29);
  }

  /** Frame n + 1 of a steady run is recorded onto a window of n equal
      samples, after n frames that emitted nothing when n < 30. */
  lemma SteadyRunLastFrame(m: Monitor, x: real, n: nat)
    requires m.isMonitoring && m.frameRates == [] && x > 0.0
    requires n < JudgementSamples
    ensures RunFrames(m, Constant(x, n + 1)).deliveries == RecordFrame(m.(frameRates := Constant(x, n)), x).deliveries
  {
    SteadyRun(m, x, n);
    ConstantSnoc(x, n);
    RunFramesAppend(m, Constant(x, n), x);
  }

  /** A slow sample completing a window of 29 equally slow ones reaches
      every observer with a severe event. */
  lemma SlowWindowCompletes(m: Monitor, x: real)
    requires m.isMonitoring && 0.0 < x < 30.0
    ensures RecordFrame(m.(frameRates := Constant(x, 29)), x).deliveries
              == Broadcast(m.callbacks, PerformanceEvent(x, x, Severe))
  {
    assert Slide(Constant(x, 29), x) == Constant(x, 30);
    SteadySlowWindowIsSevere(x);
  }

  /** With one observer and a steady rate below 30 FPS (10 FPS, say), the
      30th frame emits exactly one severe event. */
  lemma ThirtiethSlowFrameIsSevere(callback: CallbackId, x: real)
    requires 0.0 < x < 30.0
    ensures RunFrames(StartedWith(callback), Constant(x, 30)).deliveries
              == [Delivery(callback, PerformanceEvent(x, x, Severe))]
  {
    var m := StartedWith(callback);
    SteadyRunLastFrame(m, x, 29);
    SlowWindowCompletes(m, x);
  }
}

=== FILE: lighting_presets.dfy ===
/** The lighting preset table, keyed lookup with a default, and the two
    shallow-copy adjustments (per material, per device class). */
module LightingPresets {

  datatype ContactShadows = ContactShadows(opacity: real, scale: real, blur: real)

  /** One lighting preset. `materialOptimization` maps a material type to
      its `envMapIntensity`. */
  datatype Preset = Preset(
    key: string,
    name: string,
    description: string,
    environment: string,
    environmentIntensity: real,
    intensity: real,
    position: seq<real>,
    rotationY: real,
    shadows: bool,
    shadowMapSize: int,
    shadowRadius: real,
    shadowBlurSamples: int,
    shadowBias: real,
    shadowNormalBias: real,
    contactShadows: ContactShadows,
    gradient: string,
    materialOptimization: map<string, real>)

  const StudioPreset: Preset := Preset(
    "studio", "Studio", "Professional studio lighting with even illumination",
    "studio", 1.0, 1.8, [5.0, 10.0, 7.5], 45.0,
    true, 2048, 10.0, 25, -0.0005, 0.02,
    ContactShadows(0.25, 0.8, 1.2),
    "linear-gradient(135deg, #f0f0f0 0%, #e8e8e8 100%)",
    map["standard" := 1.0, "physical" := 1.2, "metallic" := 1.5])

  const OutdoorPreset: Preset := Preset(
    "outdoor", "Outdoor", "Natural sunlight with blue sky ambience",
    "city", 1.0, 2.0, [10.0, 15.0, 5.0], 60.0,
    true, 2048, 8.0, 20, -0.0003, 0.015,
    ContactShadows(0.25, 0.8, 1.2),
    "linear-gradient(135deg, #87CEEB 0%, #98D8C8 100%)",
    map["standard" := 1.2, "physical" := 1.4, "metallic" := 2.0])

  const SunsetPreset: Preset := Preset(
    "sunset", "Sunset", "Warm golden hour lighting with soft shadows",
    "sunset", 1.0, 1.5, [8.0, 6.0, 10.0], 75.0,
    true, 1024, 15.0, 30, -0.0008, 0.025,
    ContactShadows(0.2, 0.7, 1.5),
    "linear-gradient(135deg, #FF6B6B 0%, #FFE66D 100%)",
    map["standard" := 1.3, "physical" := 1.6, "metallic" := 1.8])

  const NightPreset: Preset := Preset(
    "night", "Night", "Dramatic low-key lighting with strong contrasts",
    "apartment", 1.0, 0.8, [3.0, 8.0, -5.0], 120.0,
    true, 1024, 20.0, 35, -0.001, 0.03,
    ContactShadows(0.4, 0.5, 2.0),
    "linear-gradient(135deg, #2C3E50 0%, #4A6741 100%)",
    map["standard" := 0.8, "physical" := 1.0, "metallic" := 1.2])

  /** The preset object, keyed by name. */
  const PresetTable: map<string, Preset> := map[
    "studio" := StudioPreset,
    "outdoor" := OutdoorPreset,
    "sunset" := SunsetPreset,
    "night" := NightPreset]

  /** `defaultLighting`. */
  const DefaultLighting: Preset := StudioPreset

  /** `getLightingPresets`: the table's values in declaration order. */
  function GetLightingPresets(): (r: seq<Preset>)
    ensures |r| == 4
    ensures r[0].key == "studio" && r[1].key == "outdoor" && r[2].key == "sunset" && r[3].key == "night"
    ensures forall i :: 0 <= i < |r| ==> r[i].key in PresetTable && PresetTable[r[i].key] == r[i]
    ensures forall p :: p in PresetTable.Values ==> p in r
  {
    [StudioPreset, OutdoorPreset, SunsetPreset, NightPreset]
  }

  /** `getLightingPreset`: the preset stored under `key`, else the default. */
  function GetLightingPreset(key: string): (r: Preset)
    ensures key in {"studio", "outdoor", "sunset", "night"} ==> r.key == key
    ensures key !in {"studio", "outdoor", "sunset", "night"} ==> r == StudioPreset
    ensures r in GetLightingPresets()
  {
    if key in PresetTable then PresetTable[key] else DefaultLighting
  }

  /** Looking a listed preset up by its own key gives it back. */
  lemma LookupByOwnKey(i: int)
    requires 0 <= i < |GetLightingPresets()|
    ensures GetLightingPreset(GetLightingPresets()[i].key) == GetLightingPresets()[i]
  {
  }

  /** `getOptimizedLighting`: a copy whose environment intensity is scaled by
      the material's `envMapIntensity` (a zero factor reads as 1.0) when the
      preset lists that material; every other field is copied. */
  function GetOptimizedLighting(config: Preset, materialType: string): (r: Preset)
    ensures materialType !in config.materialOptimization ==> r == config
    ensures materialType in config.materialOptimization && config.materialOptimization[materialType] != 0.0 ==>
              r.environmentIntensity == config.environmentIntensity * config.materialOptimization[materialType]
    // `factor || 1.0`: a listed factor of zero leaves the preset as it is
    ensures materialType in config.materialOptimization && config.materialOptimization[materialType] == 0.0 ==> r == config
    ensures r == config.(environmentIntensity := r.environmentIntensity)
  {
    if materialType in config.materialOptimization then
      var factor := config.materialOptimization[materialType];
      config.(environmentIntensity := config.environmentIntensity * (if factor == 0.0 then 1.0 else factor))
    else
      config
  }

  /** On the stock presets: glass is not listed, so nothing changes, and a
      metallic material on the studio preset gets 1.5 times the intensity. */
  lemma OptimizedLightingExamples()
    ensures forall i :: 0 <= i < |GetLightingPresets()| ==>
              GetOptimizedLighting(GetLightingPresets()[i], "glass") == GetLightingPresets()[i]
    ensures GetOptimizedLighting(StudioPreset, "metallic").environmentIntensity == 1.5
  {
  }

  /** `getPerformanceOptimizedLighting`: tightens a copy for `mobile` and
      `tablet`; `desktop` and any other class leave the copy as it is. */
  function GetPerformanceOptimizedLighting(config: Preset, deviceTier: string): (r: Preset)
    ensures deviceTier == "mobile" ==>
              && r.shadowMapSize <= 1024 && r.shadowBlurSamples <= 15
              && (config.shadowMapSize <= 1024 ==> r.shadowMapSize == config.shadowMapSize)
              && (config.shadowBlurSamples <= 15 ==> r.shadowBlurSamples == config.shadowBlurSamples)
              && (config.shadowMapSize > 1024 ==> r.shadowMapSize == 1024)
              && (config.shadowBlurSamples > 15 ==> r.shadowBlurSamples == 15)
              && r.environmentIntensity == config.environmentIntensity * 0.7
    ensures deviceTier == "tablet" ==>
              && r.shadowMapSize <= 1512 && r.shadowBlurSamples <= 20
              && (config.shadowMapSize <= 1512 ==> r.shadowMapSize == config.shadowMapSize)
              && (config.shadowBlurSamples <= 20 ==> r.shadowBlurSamples == config.shadowBlurSamples)
              && (config.shadowMapSize > 1512 ==> r.shadowMapSize == 1512)
              && (config.shadowBlurSamples > 20 ==> r.shadowBlurSamples == 20)
              && r.environmentIntensity == config.environmentIntensity
    ensures deviceTier != "mobile" && deviceTier != "tablet" ==> r == config
    // only these three fields can differ from the input
    ensures r == config.(shadowMapSize := r.shadowMapSize,
                         shadowBlurSamples := r.shadowBlurSamples,
                         environmentIntensity := r.environmentIntensity)
    ensures r.shadowMapSize <= config.shadowMapSize && r.shadowBlurSamples <= config.shadowBlurSamples
  {
    if deviceTier == "mobile" then
      config.(shadowMapSize := if config.shadowMapSize <= 1024 then config.shadowMapSize else 1024,
              shadowBlurSamples := if config.shadowBlurSamples <= 15 then config.shadowBlurSamples else 15,
              environmentIntensity := config.environmentIntensity * 0.7)
    else if deviceTier == "tablet" then
      config.(shadowMapSize := if config.shadowMapSize <= 1512 then config.shadowMapSize else 1512,
              shadowBlurSamples := if config.shadowBlurSamples <= 20 then config.shadowBlurSamples else 20)
    else
      config
  }

  /** The tablet adjustment is idempotent. */
  lemma TabletAdjustmentIdempotent(config: Preset)
    ensures GetPerformanceOptimizedLighting(GetPerformanceOptimizedLighting(config, "tablet"), "tablet")
         == GetPerformanceOptimizedLighting(config, "tablet")
  {
  }

  /** The mobile adjustment is not: its caps settle, but the environment
      intensity is scaled by 0.7 again on every application. */
  lemma MobileAdjustmentCompounds(config: Preset)
    ensures var twice := GetPerformanceOptimizedLighting(GetPerformanceOptimizedLighting(config, "mobile"), "mobile");
            var once := GetPerformanceOptimizedLighting(config, "mobile");
            twice.shadowMapSize == once.shadowMapSize
            && twice.shadowBlurSamples == once.shadowBlurSamples
            && twice.environmentIntensity == config.environmentIntensity * 0.49
  {
  }
}

=== FILE: optimizer.dfy ===
/** The settings optimizers: per-environment quality settings, material-aware
    shadow parameters, light intensities, and the memory estimate. */
module Optimizer {
  import opened Common
  import opened DeviceProfile
  import LightingPresets

  // ---------------------------------------------------------------------------
  // Environment quality settings
  // ---------------------------------------------------------------------------

  datatype Priority = LowPriority | MediumPriority | HighPriority

  /** One entry of the per-environment base table. */
  datatype EnvironmentBase = EnvironmentBase(
    intensity: real,
    shadowMapSize: int,
    enableTransitions: bool,
    preloadPriority: Priority)

  /** The settings object handed back. A field is `None` when the object
      lacks it or when it holds `NaN` (arithmetic on a missing field); both
      are values no caller can use as a number. */
  datatype Settings = Settings(
    intensity: Option<real>,
    shadowMapSize: Option<int>,
    enableTransitions: Option<bool>,
    preloadPriority: Option<Priority>)

  const KnownEnvironments: set<string> := {"studio", "city", "sunset", "apartment"}

  function BaseSettings(environment: string): (b: Option<EnvironmentBase>)
    ensures b.Some? <==> environment in KnownEnvironments
  {
    match environment
    case "studio" => Some(EnvironmentBase(1.0, 2048, true, HighPriority))
    case "city" => Some(EnvironmentBase(1.2, 2048, true, HighPriority))
    case "sunset" => Some(EnvironmentBase(0.8, 1512, true, MediumPriority))
    case "apartment" => Some(EnvironmentBase(0.4, 1024, true, MediumPriority))
    case _ => None
  }

  /** The object spread `{ ...entry }`: a full copy, or an empty object. */
  function Spread(b: Option<EnvironmentBase>): Settings {
    match b
    case Some(e) => Settings(Some(e.intensity), Some(e.shadowMapSize), Some(e.enableTransitions), Some(e.preloadPriority))
    case None => Settings(None, None, None, None)
  }

  function CapOpt(x: Option<int>, cap: int): Option<int> {
    match x
    case Some(v) => Some(MinInt(v, cap))
    case None => None
  }

  function ScaleOpt(x: Option<real>, k: real): Option<real> {
    match x
    case Some(v) => Some(v * k)
    case None => None
  }

  /** The per-tier overrides applied to a copied entry. */
  function ApplyTier(s: Settings, tier: Tier): Settings {
    match tier
    case Low => s.(shadowMapSize := CapOpt(s.shadowMapSize, 1024),
                   enableTransitions := Some(false),
                   intensity := ScaleOpt(s.intensity, 0.8))
    case Medium => s.(shadowMapSize := CapOpt(s.shadowMapSize, 1512))
    case High => s
  }

  /** `getOptimizedEnvironmentSettings`, as written: the spread of a missing
      entry is an empty (and truthy) object, so the studio fallback is never
      taken and an unknown name yields no base values at all. */
  function OptimizedEnvironmentSettings(environment: string, profile: Profile): (r: Settings)
    ensures environment in KnownEnvironments ==>
              var b := BaseSettings(environment).value;
              && r.preloadPriority == Some(b.preloadPriority)
              && r.shadowMapSize.Some? && r.shadowMapSize.value <= b.shadowMapSize
              && (profile.tier == Low ==>
                    && r.shadowMapSize == Some(MinInt(b.shadowMapSize, 1024))
                    && r.enableTransitions == Some(false)
                    && r.intensity == Some(0.8 * b.intensity))
              && (profile.tier == Medium ==>
                    && r.shadowMapSize == Some(MinInt(b.shadowMapSize, 1512))
                    && r == Spread(Some(b)).(shadowMapSize := r.shadowMapSize))
              && (profile.tier == High ==> r == Spread(Some(b)))
    ensures environment !in KnownEnvironments ==>
              && r.intensity.None? && r.shadowMapSize.None? && r.preloadPriority.None?
              && r.enableTransitions == (if profile.tier == Low then Some(false) else None)
  {
    ApplyTier(Spread(BaseSettings(environment)), profile.tier)
  }

  /** The dead fallback: for any name outside the table the result is not
      what the studio entry gives on the same device. */
  lemma UnknownEnvironmentIsNotStudio(environment: string, profile: Profile)
    requires environment !in KnownEnvironments
    ensures OptimizedEnvironmentSettings(environment, profile) != OptimizedEnvironmentSettings("studio", profile)
  {
  }

  /** `night` and `park` exist as environment names elsewhere, but get no
      base values here. */
  lemma NightAndParkGetNoBase(profile: Profile)
    ensures OptimizedEnvironmentSettings("night", profile).intensity == None
    ensures OptimizedEnvironmentSettings("night", profile).shadowMapSize == None
    ensures OptimizedEnvironmentSettings("park", profile).intensity == None
    ensures OptimizedEnvironmentSettings("park", profile).shadowMapSize == None
  {
  }

  /** The evidently intended behaviour: unknown names fall back to the
      studio entry. */
  function OptimizedEnvironmentSettingsWithFallback(environment: string, profile: Profile): (r: Settings)
    ensures r.intensity.Some? && r.shadowMapSize.Some? && r.enableTransitions.Some? && r.preloadPriority.Some?
    ensures environment in KnownEnvironments ==> r == OptimizedEnvironmentSettings(environment, profile)
    ensures environment !in KnownEnvironments ==> r == OptimizedEnvironmentSettings("studio", profile)
    ensures profile.tier == Low ==> r.shadowMapSize.value <= 1024 && r.enableTransitions == Some(false)
  {
    var entry := if environment in KnownEnvironments then BaseSettings(environment) else BaseSettings("studio");
    ApplyTier(Spread(entry), profile.tier)
  }

  // ---------------------------------------------------------------------------
  // Shadow settings
  // ---------------------------------------------------------------------------

  datatype ShadowMultipliers = ShadowMultipliers(mapSize: real, radius: real, samples: real)

  datatype ShadowSettings = ShadowSettings(
    mapSize: int,
    radius: real,
    blurSamples: int,
    bias: real,
    normalBias: real)

  /** `material?.type || 'standard'`. */
  function MaterialType(material: Option<string>): string {
    match material
    case Some(t) => if t == "" then "standard" else t
    case None => "standard"
  }

  /** Per-material multipliers; an unlisted type uses the standard ones. */
  function MaterialMultipliers(materialType: string): (m: ShadowMultipliers)
    ensures materialType !in {"physical", "metallic", "glass"} ==> m == ShadowMultipliers(1.0, 1.0, 1.0)
  {
    match materialType
    case "physical" => ShadowMultipliers(1.2, 0.8, 1.2)
    case "metallic" => ShadowMultipliers(1.1, 0.9, 1.1)
    case "glass" => ShadowMultipliers(0.9, 1.3, 0.8)
    case _ => ShadowMultipliers(1.0, 1.0, 1.0)
  }

  /** The first step of `getOptimizedShadowSettings`: the lighting's shadow
      parameters (zero fields replaced by 2048, 10 and 25) times the material
      multipliers, map size and samples rounded to the nearest integer (halves
      up), biases copied with their own defaults. */
  function MaterialScaled(material: Option<string>, lighting: LightingPresets.Preset): (s: ShadowSettings)
    ensures var m := MaterialMultipliers(MaterialType(material));
            var size := OrInt(lighting.shadowMapSize, 2048) as real * m.mapSize;
            var samples := OrInt(lighting.shadowBlurSamples, 25) as real * m.samples;
            && size - 0.5 < s.mapSize as real <= size + 0.5
            && samples - 0.5 < s.blurSamples as real <= samples + 0.5
            && s.radius == OrReal(lighting.shadowRadius, 10.0) * m.radius
    ensures s.bias == OrReal(lighting.shadowBias, -0.0005)
    ensures s.normalBias == OrReal(lighting.shadowNormalBias, 0.02)
  {
    var m := MaterialMultipliers(MaterialType(material));
    ShadowSettings(
      Round(OrInt(lighting.shadowMapSize, 2048) as real * m.mapSize),
      OrReal(lighting.shadowRadius, 10.0) * m.radius,
      Round(OrInt(lighting.shadowBlurSamples, 25) as real * m.samples),
      OrReal(lighting.shadowBias, -0.0005),
      OrReal(lighting.shadowNormalBias, 0.02))
  }

  /** `getOptimizedShadowSettings`: the material-scaled settings, then the
      device caps (`Math.min`). */
  function OptimizedShadowSettings(material: Option<string>, lighting: LightingPresets.Preset, profile: Profile): (r: ShadowSettings)
    ensures var s := MaterialScaled(material, lighting);
            && r.mapSize == MinInt(s.mapSize, profile.details.maxShadowMapSize)
            && (profile.tier == Low ==> r.blurSamples == MinInt(s.blurSamples, 15) && r.radius == MinReal(s.radius, 8.0))
            && (profile.tier == Medium ==> r.blurSamples == MinInt(s.blurSamples, 20) && r.radius == MinReal(s.radius, 12.0))
            && (profile.tier == High ==> r.blurSamples == s.blurSamples && r.radius == s.radius)
    ensures r.mapSize <= profile.details.maxShadowMapSize
    ensures profile.tier == Low ==> r.blurSamples <= 15 && r.radius <= 8.0
    ensures profile.tier == Medium ==> r.blurSamples <= 20 && r.radius <= 12.0
    ensures r.bias == OrReal(lighting.shadowBias, -0.0005)
    ensures r.normalBias == OrReal(lighting.shadowNormalBias, 0.02)
    ensures lighting.shadowBias != 0.0 ==> r.bias == lighting.shadowBias
    ensures lighting.shadowNormalBias != 0.0 ==> r.normalBias == lighting.shadowNormalBias
  {
    var scaled := MaterialScaled(material, lighting);
    var sized := scaled.(mapSize := MinInt(scaled.mapSize, profile.details.maxShadowMapSize));
    match profile.tier
    case Low => sized.(blurSamples := MinInt(sized.blurSamples, 15), radius := MinReal(sized.radius, 8.0))
    case Medium => sized.(blurSamples := MinInt(sized.blurSamples, 20), radius := MinReal(sized.radius, 12.0))
    case High => sized
  }

  /** An unlisted material type (or none) is treated as standard. */
  lemma UnknownMaterialIsStandard(t: string, lighting: LightingPresets.Preset, profile: Profile)
    requires t !in {"physical", "metallic", "glass"}
    ensures OptimizedShadowSettings(Some(t), lighting, profile) == OptimizedShadowSettings(None, lighting, profile)
  {
  }

  /** With the standard multipliers on a high-tier device the lighting's own
      values come through, only the map size capped by the device. */
  lemma StandardHighTierKeepsLighting(lighting: LightingPresets.Preset, profile: Profile)
    requires profile.tier == High
    requires lighting.shadowMapSize != 0 && lighting.shadowRadius != 0.0 && lighting.shadowBlurSamples != 0
    ensures var r := OptimizedShadowSettings(None, lighting, profile);
            && r.mapSize == MinInt(lighting.shadowMapSize, profile.details.maxShadowMapSize)
            && r.radius == lighting.shadowRadius
            && r.blurSamples == lighting.shadowBlurSamples
  {
  }

  // ---------------------------------------------------------------------------
  // Light intensities
  // ---------------------------------------------------------------------------

  datatype IntensityPair = IntensityPair(lightIntensity: real, environmentIntensity: real)

  /** Light and environment multipliers per environment; unlisted names
      use the studio pair (here the fallback does take effect). */
  function EnvironmentAdjustment(environment: string): (a: IntensityPair)
    ensures environment !in KnownEnvironments ==> a == IntensityPair(1.0, 1.0)
    ensures 0.0 < a.lightIntensity <= 1.1 && 0.0 < a.environmentIntensity <= 1.2
  {
    match environment
    case "city" => IntensityPair(1.1, 1.2)
    case "sunset" => IntensityPair(0.9, 0.8)
    case "apartment" => IntensityPair(0.7, 0.4)
    case _ => IntensityPair(1.0, 1.0)
  }

  function TierAdjustment(tier: Tier): IntensityPair {
    match tier
    case Low => IntensityPair(0.8, 0.7)
    case Medium => IntensityPair(1.0, 1.0)
    case High => IntensityPair(1.1, 1.2)
  }

  /** `getOptimizedIntensity`. */
  function OptimizedIntensity(preset: LightingPresets.Preset, environment: string, profile: Profile): (r: IntensityPair)
    ensures preset.intensity >= 0.0 && preset.environmentIntensity >= 0.0 ==>
              r.lightIntensity >= 0.0 && r.environmentIntensity >= 0.0
    ensures environment == "studio" && profile.tier == Medium && preset.intensity != 0.0 && preset.environmentIntensity != 0.0 ==>
              r == IntensityPair(preset.intensity, preset.environmentIntensity)
  {
    var light := OrReal(preset.intensity, 1.0);
    var env := OrReal(preset.environmentIntensity, 0.6);
    var a := EnvironmentAdjustment(environment);
    var t := TierAdjustment(profile.tier);
    var lightForEnvironment := light * a.lightIntensity;
    var envForEnvironment := env * a.environmentIntensity;
    ProductNonNegative(light, a.lightIntensity);
    ProductNonNegative(env, a.environmentIntensity);
    IntensityPair(lightForEnvironment * t.lightIntensity, envForEnvironment * t.environmentIntensity)
  }

  lemma ProductNonNegative(x: real, y: real)
    ensures x >= 0.0 && y >= 0.0 ==> x * y >= 0.0
  {
  }

  /** The tier factors, relative to the medium result (which applies the
      environment multipliers alone): low scales light by 0.8 and environment
      by 0.7, high scales them by 1.1 and 1.2. */
  lemma IntensityTierFactors(preset: LightingPresets.Preset, environment: string, low: Profile, medium: Profile, high: Profile)
    requires low.tier == Low && medium.tier == Medium && high.tier == High
    ensures var m := OptimizedIntensity(preset, environment, medium);
            && m == IntensityPair(OrReal(preset.intensity, 1.0) * EnvironmentAdjustment(environment).lightIntensity,
                                  OrReal(preset.environmentIntensity, 0.6) * EnvironmentAdjustment(environment).environmentIntensity)
            && OptimizedIntensity(preset, environment, low) == IntensityPair(0.8 * m.lightIntensity, 0.7 * m.environmentIntensity)
            && OptimizedIntensity(preset, environment, high) == IntensityPair(1.1 * m.lightIntensity, 1.2 * m.environmentIntensity)
  {
    var a := EnvironmentAdjustment(environment);
    var la, ea := OrReal(preset.intensity, 1.0) * a.lightIntensity, OrReal(preset.environmentIntensity, 0.6) * a.environmentIntensity;
    assert OptimizedIntensity(preset, environment, low) == IntensityPair(la * 0.8, ea * 0.7);
    assert OptimizedIntensity(preset, environment, medium) == IntensityPair(la * 1.0, ea * 1.0);
    assert OptimizedIntensity(preset, environment, high) == IntensityPair(la * 1.1, ea * 1.2);
  }

  /** For non-negative preset values, a better tier never dims the lights:
      low <= medium <= high for both outputs. */
  lemma IntensityOrderedByTier(preset: LightingPresets.Preset, environment: string, low: Profile, medium: Profile, high: Profile)
    requires preset.intensity >= 0.0 && preset.environmentIntensity >= 0.0
    requires low.tier == Low && medium.tier == Medium && high.tier == High
    ensures var l, m, h := OptimizedIntensity(preset, environment, low),
                           OptimizedIntensity(preset, environment, medium),
                           OptimizedIntensity(preset, environment, high);
            l.lightIntensity <= m.lightIntensity <= h.lightIntensity
            && l.environmentIntensity <= m.environmentIntensity <= h.environmentIntensity
  {
    IntensityTierFactors(preset, environment, low, medium, high);
    var m := OptimizedIntensity(preset, environment, medium);
    assert m.lightIntensity >= 0.0 && m.environmentIntensity >= 0.0;
  }

  /** Unlisted environment names get the studio multipliers. */
  lemma UnknownEnvironmentIntensityIsStudio(preset: LightingPresets.Preset, environment: string, profile: Profile)
    requires environment !in KnownEnvironments
    ensures OptimizedIntensity(preset, environment, profile) == OptimizedIntensity(preset, "studio", profile)
  {
  }

  // ---------------------------------------------------------------------------
  // Memory estimate
  // ---------------------------------------------------------------------------

  datatype MemoryEstimate = MemoryEstimate(shadowMaps: real, environment: real, total: real, warning: bool)

  const WarningThresholdMB: real := 50.0

  /** Megabytes for one environment map; unlisted names count 4. */
  function EnvironmentMemory(environment: string): (mb: real)
    ensures 3.0 <= mb <= 6.0
    ensures environment !in KnownEnvironments ==> mb == 4.0
  {
    match environment
    case "studio" => 4.0
    case "city" => 6.0
    case "sunset" => 5.0
    case "apartment" => 3.0
    case _ => 4.0
  }

  /** Megabytes for a cube shadow map: six faces of 4 bytes per texel. */
  function ShadowMapMemory(shadowMapSize: int): (mb: real)
    ensures mb >= 0.0
  {
    (shadowMapSize * shadowMapSize) as real * 4.0 * 6.0 / (1024.0 * 1024.0)
  }

  /** `estimateMemoryUsage`. */
  function EstimateMemoryUsage(shadowMapSize: int, environment: string): (r: MemoryEstimate)
    ensures r.shadowMaps == ShadowMapMemory(shadowMapSize) && r.environment == EnvironmentMemory(environment)
    ensures r.total == r.shadowMaps + r.environment
    ensures r.warning <==> r.total > WarningThresholdMB
    ensures 3.0 <= r.environment <= 6.0 && r.shadowMaps >= 0.0
  {
    var shadow := ShadowMapMemory(shadowMapSize);
    var env := EnvironmentMemory(environment);
    MemoryEstimate(shadow, env, shadow + env, shadow + env > WarningThresholdMB)
  }

  /** Worked figures: a 1024 map in the studio costs 24 + 4 MB and does not
      warn; a 2048 map in the city costs 96 + 6 MB and does. */
  lemma MemoryExamples()
    ensures EstimateMemoryUsage(1024, "studio") == MemoryEstimate(24.0, 4.0, 28.0, false)
    ensures EstimateMemoryUsage(2048, "city") == MemoryEstimate(96.0, 6.0, 102.0, true)
  {
  }

  /** Shadow-map memory grows with the map size. */
  lemma ShadowMemoryMonotone(a: int, b: int)
    requires 0 <= a <= b
    ensures ShadowMapMemory(a) <= ShadowMapMemory(b)
  {
    assert a * a <= a * b <= b * b;
  }

  /** A 2048 or 1512 map always trips the 50 MB warning; a map of at most
      1024 never does, whatever the environment. */
  lemma MemoryWarningThresholds(shadowMapSize: int, environment: string)
    ensures shadowMapSize >= 1512 ==> EstimateMemoryUsage(shadowMapSize, environment).warning
    ensures 0 <= shadowMapSize <= 1024 ==> !EstimateMemoryUsage(shadowMapSize, environment).warning
  {
    if shadowMapSize >= 1512 {
      ShadowMemoryMonotone(1512, shadowMapSize);
      assert ShadowMapMemory(1512) > 52.0;
    }
    if 0 <= shadowMapSize <= 1024 {
      ShadowMemoryMonotone(shadowMapSize, 1024);
      assert ShadowMapMemory(1024) == 24.0;
    }
  }
}
